=== FILE: README.md ===
# modu_soccer back end — a Dafny model of its core

modu_soccer is a Spring back end for amateur football teams. Users create
teams and ask to join them. Managers approve requests and edit members and
teams. Matches between two teams are split into quarters. Each quarter's
score updates both teams' win/draw/lose record. Goals, assists and own goals
are recorded per quarter as "attack points". Paged leaderboards count them
per player and per scorer/assister pair.

This project models that core as pure functions over immutable stores:

- The team-record ledger: the outcome of a quarter becomes win, draw or lose
  increments for both teams (`team_record.dfy`, `ledger.dfy`).
- Members and the authorization rule every service shares
  (`membership.dfy`), and the member service (`member_service.dfy`).
- Quarters: their outcome, ordering and hash (`quarter.dfy`). The quarter
  service creates a quarter together with its ledger update and routes a
  formation edit to side A or side B (`quarter_service.dfy`).
- Matches: newest-first ordering and the match service (`match.dfy`).
- Attack points, recording a goal with its optional linked assist
  (`attack_point.dfy`).
- The three ranking queries (`rankings.dfy`), built on a generic
  `group by … count … order by count desc limit … offset …`
  (`grouping.dfy`), and the statistics service that joins the rows back to
  users (`statistics.dfy`).
- The team service (`team_service.dfy`).
- Validation of a quarter-participation request (`participation.dfy`).
- The `Bearer ` header stripper and token-expiry arithmetic (`jwt.dfy`),
  following section 2.1 of RFC 6750 for the header shape.
- Parsing the user id held in the logging context (`mdc.dfy`).

Modelling conventions:

- Each service call returns `Result<T>`: `Ok(value)` or `Err(error)`. An
  error carries the error code or exception the Java code throws. A failed
  call changes no store, because the transaction rolls back.
- Tables are sequences searched for the first matching row. Teams, team
  records (unique by team) and users are maps keyed by id.
- An entity's identity is `EntityKey(ref, id)`. `ref` stands for the Java
  object reference, and `id` for the generated key, which is `None` until
  the row is saved. Every entity's `equals` is "same object, or both ids
  equal and non-null".
- An attack point's `goal` and `assist` links hold object references.
- The current user, the clock and generated ids are parameters.

Where the code and its documentation disagree, the model follows the code,
except in these places:

- `createQuarterOfMatch` calls `updateTeamRecord` with the two scores, but
  `TeamRecordService` takes one score difference. The model passes
  `teamAScore - teamBScore`.
- The quarter builder in `createQuarterOfMatch` sets neither `teamA` nor
  `teamB`, although both columns are non-null. The model takes them from
  the match.
- `TeamMember.hasManagePermission` is called by three services but is not
  declared in the `TeamMember` entity of this model's source revision.
  `Permission` itself is a plain enum of ADMIN, MANAGER and MEMBER. The
  model treats ADMIN and MANAGER as able to manage a team and MEMBER as
  not.
- `createMatch` sorts its two teams with `Collections.sort`. `Team.java`
  declares no ordering, so the model orders the teams by id.
- The user checks of `addAttackPoint` and `validateUserInTeams` accept a
  membership row of any status (waiting and denied included), as the
  queries do.

## Model

| member | source | states |
|---|---|---|
| `Common.EqualEntitiesHashAlike` | src/main/java/com/modu/soccer/entity/TeamMember.java:73-89 | two entities that `equals` relates have the same `Objects.hash(id)` |
| `Common.UnsavedEqualsOnlyItself` | src/main/java/com/modu/soccer/entity/TeamMember.java:73-84 | an entity with a null id equals only the very same object |
| `TeamRecords.NewTeamRecord` | src/main/java/com/modu/soccer/entity/TeamRecord.java:34-49 | a new record row belongs to its team and has every counter at zero, so its total is zero |
| `TeamRecords.UpdateRecordAsWritten` | src/main/java/com/modu/soccer/entity/TeamRecord.java:69-76 | `updateRecord` as written: win, draw and both goal counters grow by their deltas, but the new `lose` is the updated win plus the lose delta |
| `TeamRecords.UpdateRecordAsWrittenLosesLosses` | src/main/java/com/modu/soccer/entity/TeamRecord.java:72 | a row with 3 wins and 1 loss that records one more loss ends with 4 losses, where the intended update gives 2 |
| `TeamRecords.UpdateRecordAsWrittenNotAdditive` | src/main/java/com/modu/soccer/entity/TeamRecord.java:69-76 | two as-written updates of one loss differ from one update of two losses |
| `TeamRecords.UpdateRecord` | src/main/java/com/modu/soccer/entity/TeamRecord.java:69-76 | the intended update: every counter grows by exactly its own delta, and the total grows by win + draw + lose |
| `TeamRecords.UpdateRecordAdditive` | src/main/java/com/modu/soccer/entity/TeamRecord.java:69-76 | two intended updates equal one update by the summed deltas |
| `TeamRecords.AddOutcome` | src/main/java/com/modu/soccer/repository/TeamRecordRepository.java:15-20 | the bulk update adds the deltas to the win, draw and lose of the team's row only; goal columns, other rows and the key set are unchanged; a team without a row changes nothing |
| `TeamRecords.AddOutcomeAdditive` | src/main/java/com/modu/soccer/repository/TeamRecordRepository.java:15-20 | two bulk updates of one row equal one update by the summed deltas |
| `TeamRecords.AddOutcomeCommutes` | src/main/java/com/modu/soccer/repository/TeamRecordRepository.java:15-20 | bulk updates of two rows, distinct or the same, commute |
| `TeamRecords.AddOutcomeNegatedCancels` | src/main/java/com/modu/soccer/repository/TeamRecordRepository.java:15-20 | a bulk update by the negated deltas undoes one by the deltas |
| `Ledger.OutcomeDeltas` | src/main/java/com/modu/soccer/service/TeamRecordService.java:30-39 | each team receives exactly one outcome: A wins iff the difference is positive, draws iff it is zero, loses iff it is negative; B receives the mirror image |
| `Ledger.OutcomeDeltasMirror` | src/main/java/com/modu/soccer/service/TeamRecordService.java:30-39 | negating the difference swaps the two teams' deltas |
| `Ledger.UpdateTeamRecord` | src/main/java/com/modu/soccer/service/TeamRecordService.java:21-40 | a missing team fails with "team" not found; otherwise each team's row is exactly its old row with its outcome deltas added to win, draw and lose (A's and B's mirror each other; one team playing both sides gets both); other rows, the goal columns and the key set are unchanged |
| `Ledger.UpdateTeamRecordMirror` | src/main/java/com/modu/soccer/service/TeamRecordService.java:21-40 | recording (A, B, d) equals recording (B, A, -d), errors included |
| `Ledger.UpdateTeamRecordTotals` | src/main/java/com/modu/soccer/service/TeamRecordService.java:30-39 | a team's total grows by the number of sides (A, B) it takes in the quarter |
| `Members.NewMember` | src/main/java/com/modu/soccer/entity/TeamMember.java:60-71 | a built member has role NONE, permission MEMBER, status WAITING and no position or back number |
| `Members.FindByTeamAndUser` | src/main/java/com/modu/soccer/service/TeamMemberService.java:154-157 | returns a row of that team and user, of any status, and returns none exactly when no such row exists |
| `Members.FindIndexById` | src/main/java/com/modu/soccer/service/TeamMemberService.java:120-122 | finds the row saved under the id, and finds none exactly when no row has it |
| `Members.Authorize` | src/main/java/com/modu/soccer/service/TeamMemberService.java:154-159 | with no row for the caller it fails with the caller's "missing" error; with a row lacking manage permission it fails with NO_PERMISSION_ON_TEAM; under the unique constraint it succeeds iff the caller's row has manage permission |
| `Members.SameRowsKeepWellFormed` | src/main/java/com/modu/soccer/entity/TeamMember.java:28-35 | an update that keeps every row's id, team and user keeps (team, user) unique and ids distinct |
| `Quarters.NewFormation` | src/main/java/com/modu/soccer/service/QuarterService.java:35 | the new formation names team A on side A and team B on side B |
| `Quarters.IsTeamWinSpec` | src/main/java/com/modu/soccer/entity/Quarter.java:83-90 | a team wins a quarter iff it is side A and A outscored B, or side B and B outscored A; so a draw has no winner, an outsider never wins, and two distinct sides never both win |
| `Quarters.CompareInt` | src/main/java/com/modu/soccer/entity/Quarter.java:80 | `Integer.compareTo` gives -1, 0 or 1, negative iff less, zero iff equal, positive iff greater |
| `Quarters.CompareQuarters` | src/main/java/com/modu/soccer/entity/Quarter.java:78-81 | quarters compare by their ordinal: the sign is the sign of the ordinal difference |
| `Quarters.CompareQuartersAntisymmetric` | src/main/java/com/modu/soccer/entity/Quarter.java:78-81 | comparing b with a gives the negation of comparing a with b |
| `Quarters.QuarterHash` | src/main/java/com/modu/soccer/entity/Quarter.java:73-76 | the hash is a 32-bit `int`, and an unsaved quarter hashes to 0 |
| `Quarters.EqualQuartersHashAlike` | src/main/java/com/modu/soccer/entity/Quarter.java:60-76 | `hashCode` reads the id alone, so quarters that the id-based `equals` relates hash alike |
| `Quarters.FindIndexById` | src/main/java/com/modu/soccer/service/AttackPointService.java:36-38 | finds the quarter saved under the id, and finds none exactly when no quarter has it |
| `Matches.CompareMatches` | src/main/java/com/modu/soccer/entity/Match.java:55-58 | a later match compares as smaller, so it sorts first; equal dates compare equal |
| `Matches.CompareMatchesAntisymmetric` | src/main/java/com/modu/soccer/entity/Match.java:55-58 | comparison is zero on a match with itself and antisymmetric in sign |
| `Matches.InsertByDate` | src/main/java/com/modu/soccer/service/MatchService.java:39 | inserting a match adds exactly that match to the multiset of matches |
| `Matches.InsertByDateKeepsTies` | src/main/java/com/modu/soccer/service/MatchService.java:39 | the inserted match goes first among the matches of its date, and the matches of every date keep their relative order |
| `Matches.InsertByDateKeepsOrder` | src/main/java/com/modu/soccer/service/MatchService.java:39 | inserting into a newest-first list keeps it newest first |
| `Matches.SortNewestFirst` | src/main/java/com/modu/soccer/service/MatchService.java:39 | `sorted()` is stable: the result is a permutation of the input in which the matches of each date appear in their input order |
| `Matches.SortNewestFirstOrders` | src/main/java/com/modu/soccer/service/MatchService.java:39 | the sorted list is newest first |
| `Matches.WithTeamA` | src/main/java/com/modu/soccer/service/MatchService.java:37 | keeps exactly the matches with that team as side A |
| `Matches.WithTeamB` | src/main/java/com/modu/soccer/service/MatchService.java:38 | keeps exactly the matches with that team as side B |
| `Matches.GetMatches` | src/main/java/com/modu/soccer/service/MatchService.java:32-40 | an unknown team is not found; otherwise the result is newest first, holds exactly the matches the team plays on either side, and is a permutation of the side-A list followed by the side-B list in which matches of one date keep that order |
| `Matches.SameDayMatchesKeepListingOrder` | src/main/java/com/modu/soccer/service/MatchService.java:37-39 | when all matches fall on one date, the listing is exactly the side-A matches followed by the side-B matches, each in table order |
| `Matches.GetMatchById` | src/main/java/com/modu/soccer/service/MatchService.java:42-47 | returns a match with that id, and fails with "match" not found exactly when none has it |
| `Matches.ValidateUserInTeams` | src/main/java/com/modu/soccer/service/MatchService.java:87-92 | succeeds iff the user has a membership row, of any status, in one of the two teams; otherwise FORBIDDEN |
| `Matches.CreateMatch` | src/main/java/com/modu/soccer/service/MatchService.java:49-69 | succeeds iff the two ids name two distinct existing teams and the caller belongs to one of them; equal or missing ids give "team" not found, a caller in neither team FORBIDDEN; the new match is appended with the lower id as side A, the date and the creator |
| `Matches.EditMatch` | src/main/java/com/modu/soccer/service/MatchService.java:76-85 | an unknown match is not found; for a found match the edit succeeds iff the caller has a row in either of its teams, else FORBIDDEN; a success changes only that match's date |
| `QuarterService.CreateQuarterOfMatch` | src/main/java/com/modu/soccer/service/QuarterService.java:33-47 | fails iff a team of the match is missing, then saving nothing; otherwise appends the quarter with the request's scores and ordinal, the match's sides and a fresh formation, and applies the ledger update for the score difference |
| `QuarterService.FreshStoreBalanced` | src/main/java/com/modu/soccer/entity/TeamRecord.java:34-49 | zeroed records and no quarters satisfy the ledger invariant (every team's total is the number of sides it takes in stored quarters) |
| `QuarterService.CreateQuarterKeepsBalance` | src/main/java/com/modu/soccer/service/QuarterService.java:33-47 | creating a quarter keeps the ledger invariant |
| `QuarterService.GetQuartersOfMatch` | src/main/java/com/modu/soccer/service/QuarterService.java:49-52 | returns exactly the quarters of the match |
| `QuarterService.GetQuarterInfoOfMatch` | src/main/java/com/modu/soccer/service/QuarterService.java:54-59 | returns the quarter with that id if it belongs to the match; fails with "quarter" not found exactly when none does |
| `QuarterService.QuarterIndex` | src/main/java/com/modu/soccer/service/QuarterService.java:54-59 | locates the same quarter, and finds none exactly when the lookup fails |
| `QuarterService.FormationEditTarget` | src/main/java/com/modu/soccer/service/QuarterService.java:62-72 | a missing quarter is not found; otherwise succeeds iff the caller manages the team of the request, else fails with the permission check's own error: FORBIDDEN without a row, NO_PERMISSION_ON_TEAM without manage permission |
| `QuarterService.UpdateQuarterFormationAsWritten` | src/main/java/com/modu/soccer/service/QuarterService.java:61-84 | as written, with boxed `Long` identity: a team id outside -128..127 never matches a side, so an authorized edit fails with "invalid team id"; inside that range it behaves exactly as the corrected version |
| `QuarterService.BoxedComparisonRejectsLargeIds` | src/main/java/com/modu/soccer/service/QuarterService.java:74-83 | the admin of team 200 editing side A of quarter 200-vs-300 is refused as written and accepted by the corrected version |
| `QuarterService.UpdateQuarterFormation` | src/main/java/com/modu/soccer/service/QuarterService.java:61-84 | corrected: lookup and permission errors pass through; an authorized edit fails with "invalid team id" iff the team is neither side; otherwise only the matching side's formation of that quarter changes |
| `AttackPoints.Of` | src/main/java/com/modu/soccer/entity/AttackPoint.java:70-79 | a new event is unsaved, unlinked and carries the given team, quarter, user, type and time |
| `AttackPoints.ValidateAndGetUserCondition` | src/main/java/com/modu/soccer/service/AttackPointService.java:78-86 | succeeds iff the user exists and has a row, of any status, in the team; an unknown user is "user" not found, a non-member "team member" not found |
| `AttackPoints.QuarterOfMatch` | src/main/java/com/modu/soccer/service/AttackPointService.java:36-42 | a missing quarter is "quarter" not found; a quarter of another match is an illegal argument; otherwise it is the stored quarter |
| `AttackPoints.BuildBatch` | src/main/java/com/modu/soccer/service/AttackPointService.java:44-61 | succeeds iff the scorer passes the user check, the own-goal flag is present, and the assister, if named, passes too; the errors come in that order, each check failing with its own error, an omitted flag being the `NullPointerException` of unboxing it; the batch is the goal (OWN_GOAL iff flagged) and, with an assister, an ASSIST with the same team, quarter and time, the two linked both ways |
| `AttackPoints.SaveAll` | src/main/java/com/modu/soccer/service/AttackPointService.java:63 | the batch is appended after the stored events, in order, under consecutive new ids |
| `AttackPoints.AddAttackPoint` | src/main/java/com/modu/soccer/service/AttackPointService.java:34-64 | quarter errors come first, then the scorer, own-goal flag and assister errors, and any of them saves nothing; a success appends one event, or two with an assister, and keeps the stored events |
| `AttackPoints.AddAttackPointLinks` | src/main/java/com/modu/soccer/service/AttackPointService.java:56-61 | after a goal with an assist is saved, the two link to each other, take the two new ids, and no other event links to the goal |
| `AttackPoints.FindAllGoalsOfQuarter` | src/main/java/com/modu/soccer/repository/AttackPointRepository.java:19-20 | returns exactly the quarter's events that are not assists |
| `AttackPoints.GetGoalsOfQuarter` | src/main/java/com/modu/soccer/service/AttackPointService.java:66-76 | fails exactly as the quarter checks do; otherwise returns exactly the quarter's goals and own goals |
| `Grouping.OccFilterMap` | src/main/java/com/modu/soccer/repository/AttackPointRepository.java:22-27 | the number of selected rows with key k equals the number of positions the where clause maps to k |
| `Grouping.DistinctCard` | src/main/java/com/modu/soccer/service/TeamMemberService.java:72-73 | the distinct elements of a list are as many as the elements of its set |
| `Grouping.TallyExact` | src/main/java/com/modu/soccer/repository/AttackPointRepository.java:22-27 | grouping yields one row per distinct key, each with the key's exact count, and a row for every key |
| `Grouping.RankIsRanking` | src/main/java/com/modu/soccer/repository/AttackPointRepository.java:22-27 | the ranked rows are one admissible query result: distinct keys, exact counts, every key present, counts non-increasing |
| `Grouping.RankCountsSum` | src/main/java/com/modu/soccer/repository/AttackPointRepository.java:22-27 | the counts of the complete ranking add up to the number of grouped rows |
| `Grouping.RankingHeadIsMostFrequent` | src/main/java/com/modu/soccer/service/TeamMemberService.java:161-166 | the first row of any ranking of a non-empty list holds a most frequent key |
| `Grouping.Page` | src/main/java/com/modu/soccer/repository/AttackPointRepository.java:27 | `limit L offset O` is the slice from O of at most L rows; an offset past the end gives nothing |
| `Grouping.PageKeepsOrder` | src/main/java/com/modu/soccer/repository/AttackPointRepository.java:26-27 | a page of count-descending rows with distinct keys has both properties too |
| `Grouping.ConsecutivePages` | src/main/java/com/modu/soccer/repository/AttackPointRepository.java:27 | two consecutive pages of size L are the page of size 2L |
| `Grouping.RankPage` | src/main/java/com/modu/soccer/repository/AttackPointRepository.java:22-31 | the query result is at most L rows with distinct keys and exact counts in descending order, and it is the page of some admissible complete ranking |
| `Rankings.TypeCountIsRowCount` | src/main/java/com/modu/soccer/repository/AttackPointRepository.java:22-31 | a user's per-type count is the number of rows with that team, that type and that user |
| `Rankings.AttackCountIsGoalsPlusAssists` | src/main/java/com/modu/soccer/repository/AttackPointRepository.java:33-40 | a user's attack-point count is their goal count plus their assist count; own goals never count |
| `Rankings.DuoKeyOf` | src/main/java/com/modu/soccer/repository/AttackPointRepository.java:43 | the pair key is null iff the assister is null; otherwise it holds the two users, least first |
| `Rankings.DuoKeyDirectionFree` | src/main/java/com/modu/soccer/repository/AttackPointRepository.java:43-46 | x assisted by y and y assisted by x fall in one group |
| `Rankings.DuoCountIsPairCount` | src/main/java/com/modu/soccer/repository/AttackPointRepository.java:42-50 | the count of a pair key is the number of joined (counted goal, linked row) pairs with that key |
| `Rankings.DuoCountsSumToLinkedGoals` | src/main/java/com/modu/soccer/repository/AttackPointRepository.java:42-50 | when every goal has at most one linked row, the pair counts add up to the number of counted goals that have one |
| `Statistics.StatKeysCount` | src/main/java/com/modu/soccer/service/StatisticsService.java:34-43 | GOAL counts goal rows, ASSIST counts assist rows, ATTACK_POINT counts both |
| `Statistics.TopRows` | src/main/java/com/modu/soccer/service/StatisticsService.java:31-43 | at most a page of rows with distinct users and positive counts, each that user's statistic, in descending order; the page at offset page × size of an admissible ranking |
| `Statistics.GetUserIdMap` | src/main/java/com/modu/soccer/service/StatisticsService.java:68-74 | maps exactly the requested ids that name a user to that user |
| `Statistics.GetTopMembers` | src/main/java/com/modu/soccer/service/StatisticsService.java:30-50 | one record per query row, in order, with the row's count and the user found under the row's id, if any; the counts are descending and equal the found user's statistic |
| `Statistics.DuoLookupIds` | src/main/java/com/modu/soccer/service/StatisticsService.java:57-59 | the requested ids are each row's least and greatest user, in row order |
| `Statistics.PresentIds` | src/main/java/com/modu/soccer/service/StatisticsService.java:69 | keeps exactly the non-null requested ids |
| `Statistics.GetTopDuoMembers` | src/main/java/com/modu/soccer/service/StatisticsService.java:52-66 | one record per pair row, in order, with both users as stored and the row's count, which is the number of joined pairs with that key; counts are descending |
| `Participations.CheckEntry` | src/main/java/com/modu/soccer/domain/request/QuarterParticipationRequest.java:32-40 | an entry passes iff it is valid; with no player going out and a time other than the start it fails with the time message; with a player going out and a null or empty name, with the name message |
| `Participations.Validate` | src/main/java/com/modu/soccer/domain/request/QuarterParticipationRequest.java:31-42 | passes iff every entry is valid; a failure is the error of the first invalid entry |
| `Participations.ValidateConcat` | src/main/java/com/modu/soccer/domain/request/QuarterParticipationRequest.java:31-42 | validating a + b reports a's error if a fails, and b's result otherwise |
| `Jwt.GetJwtTokenFromHeader` | src/main/java/com/modu/soccer/jwt/JwtProvider.java:76-82 | succeeds iff the header is present and starts with `Bearer `; the token is the rest, so prefix plus token is the header; otherwise AUTHENTICATION_FAILED |
| `Jwt.BearerRoundTrip` | src/main/java/com/modu/soccer/jwt/JwtProvider.java:76-82 | any token, the empty one included, is recovered from `Bearer ` followed by it |
| `Jwt.LowerCaseSchemeRefused` | src/main/java/com/modu/soccer/jwt/JwtProvider.java:77-79 | a header starting with lower-case `bearer ` is refused |
| `Jwt.ExpiryOrder` | src/main/java/com/modu/soccer/jwt/JwtProvider.java:44-55 | a token's lifetime is the one configured for its type and does not depend on its issue time, a later token of a type never expires before an earlier one, and an access token never outlives a refresh token issued with it when its lifetime is the shorter |
| `UserIdParse.GetUserIdFromMdc` | src/main/java/com/modu/soccer/utils/MDCUtil.java:11-20 | a missing entry fails authentication; a non-numeric one is "<entry> is not number"; a numeric one parses to its decimal value, and succeeds iff that value fits a `long`; a larger one fails with `Long.valueOf`'s "For input string" message |
| `UserIdParse.ParseShowRoundTrip` | src/main/java/com/modu/soccer/utils/MDCUtil.java:11-20 | every non-negative `long` written in decimal parses back to itself |
| `UserIdParse.LeadingZeroIgnored` | src/main/java/com/modu/soccer/utils/MDCUtil.java:19 | a leading zero does not change the parsed value |
| `UserIdParse.NonDigitsRefused` | src/main/java/com/modu/soccer/utils/MDCUtil.java:16-18 | a sign, a blank or an empty entry is refused as not a number |
| `MemberService.WithTeamAndStatus` | src/main/java/com/modu/soccer/service/TeamMemberService.java:52 | keeps exactly the team's rows with that status |
| `MemberService.GetTeamMembers` | src/main/java/com/modu/soccer/service/TeamMemberService.java:44-55 | an unknown team is not found; accepted members are listed for anyone; other statuses only for a manager, others getting the authorization error; the list is exactly the team's rows with that status |
| `MemberService.CreateMember` | src/main/java/com/modu/soccer/service/TeamMemberService.java:94-112 | an unknown team is not found; an existing row refuses with ALREADY_EXIST_MEMBER if accepted, else ALREADY_REQUESTED_JOIN; otherwise one waiting MEMBER row is appended |
| `MemberService.CreateMemberKeepsWellFormed` | src/main/java/com/modu/soccer/service/TeamMemberService.java:94-112 | a join request keeps (team, user) unique and ids distinct |
| `MemberService.ChangeMemberPosition` | src/main/java/com/modu/soccer/service/TeamMemberService.java:114-128 | authorization errors first, then "member" not found; an authorized caller naming an existing id always succeeds, and the success overwrites exactly position, role, back number and permission of the row with that id, in whatever team |
| `MemberService.ChangeMemberPositionKeepsWellFormed` | src/main/java/com/modu/soccer/service/TeamMemberService.java:114-128 | a position change keeps the table well formed |
| `MemberService.ApproveTeamJoin` | src/main/java/com/modu/soccer/service/TeamMemberService.java:130-152 | authorization errors first, then "request member" not found, then a non-waiting row is an illegal argument; otherwise only that row's status becomes ACCEPTED or DENIED |
| `MemberService.ApprovalIsFinal` | src/main/java/com/modu/soccer/service/TeamMemberService.java:143-151 | once decided, a request cannot be decided again, either way |
| `MemberService.ApproveKeepsWellFormed` | src/main/java/com/modu/soccer/service/TeamMemberService.java:130-152 | an approval keeps the table well formed |
| `MemberService.ParticipationsOf` | src/main/java/com/modu/soccer/service/TeamMemberService.java:67-68 | keeps exactly the team's participations the user came in for |
| `MemberService.MostPosition` | src/main/java/com/modu/soccer/service/TeamMemberService.java:161-166 | no participations is NoSuchElement; otherwise a played position no other position outnumbers |
| `MemberService.WonQuarters` | src/main/java/com/modu/soccer/service/TeamMemberService.java:74 | keeps exactly the quarters the team won |
| `MemberService.QuarterTally` | src/main/java/com/modu/soccer/service/TeamMemberService.java:72-74 | the total is the number of distinct quarters, the wins the number of distinct won ones, never more than the total |
| `MemberService.FindAcceptedMember` | src/main/java/com/modu/soccer/service/TeamMemberService.java:61-65 | finds an accepted row of the team under the id, and finds none exactly when there is none |
| `MemberService.GetTeamMemberInfo` | src/main/java/com/modu/soccer/service/TeamMemberService.java:57-92 | a non-accepted or unknown member is "team member" not found, and no participations is NoSuchElement; otherwise the detail has distinct quarters, wins among them, the member's goal and assist rows, a most played position and the member's role, permission and number |
| `TeamService.CreateTeam` | src/main/java/com/modu/soccer/service/TeamService.java:35-55 | the team is stored with a zeroed record and its creator as sole member, ADMIN and ACCEPTED, whom the permission rule lets manage it; nothing else changes |
| `TeamService.CreateTeamKeepsWellFormed` | src/main/java/com/modu/soccer/service/TeamService.java:35-55 | creating a team keeps the member table well formed |
| `TeamService.GetTeamById` | src/main/java/com/modu/soccer/service/TeamService.java:63-67 | returns the stored team, and fails with "team" not found exactly when there is none |
| `TeamService.TeamPermission` | src/main/java/com/modu/soccer/service/TeamService.java:95-102 | a caller with no row is "team member" not found; otherwise succeeds iff the row has manage permission, else NO_PERMISSION_ON_TEAM |
| `TeamService.EditTeam` | src/main/java/com/modu/soccer/service/TeamService.java:69-77 | an unknown team is not found; succeeds iff the permission check does; changes only the team's name and location |
| `TeamService.UpdateAndReturnPrevTeamLogo` | src/main/java/com/modu/soccer/service/TeamService.java:79-88 | an unknown team is not found; succeeds iff the permission check does; swaps only the logo URL and returns the previous one |
| `TeamService.LogoSwapRestores` | src/main/java/com/modu/soccer/service/TeamService.java:79-88 | putting back the returned URL restores the store exactly |
| `TeamService.GetTeamsOfUser` | src/main/java/com/modu/soccer/service/TeamService.java:90-93 | returns exactly the teams of the user's accepted memberships |

## Left out

- I/O, the HTTP layer, transactions and concurrency: each call is one
  atomic function, and a thrown call leaves the stores as they were.
- `winRate`, floating-point columns and the location point: `calculateWinRate`
  and the member detail's win rate are floating point. The location is an
  opaque pair of reals.
- Formation JSON: the formation body is opaque text. The `json_set` updates
  become replacing one side's `TeamFormation`.
- JWT signing, parsing and expiry checks (`isTokenExpired`,
  `createClaimsFrom`): they are cryptography in a library. Only the header
  stripper and the expiry arithmetic are modelled.
- `TokenType.java` is not part of this model. `OtherTokenType` stands for
  any constant besides the two with a lifetime.
- The body of `TeamMember.hasManagePermission` is not part of this model:
  the method is called but not declared in the entity's revision. It is
  read as ADMIN or MANAGER over the `Permission` enum.
- `getTeamWithOwner`: it differs from `getTeamById` only in fetching the
  owner eagerly, and `GetTeamById` models both.
- Quarter deletion and the legacy `Goal` model are outside this core.
- The Hibernate proxy-class test in `equals` is left out: all entities of a
  type share one class in the model.
- Ties: the grouping queries and `Collections.max` may order equal counts
  either way. `IsRanking` admits any tie order, and `Rank` is one of them.
  The match listing is different: `sorted()` is stable, and the model
  keeps that order.
- Null positions: a participation with a null position would make
  `groupingBy` throw. Participation rows carry a non-null position.
- A null participation list (`forEach` on null) is not modelled. The list
  is a sequence.
- `findAllById` with null ids: the duo lookup passes only the non-null ids,
  through `PresentIds`.
- `UserIdParse.GetUserIdFromMdc`: accepts only ASCII digits, whereas
  `StringUtils.isNumeric` also accepts other Unicode digits, which
  `Long.valueOf` reads as well.
- `TeamRecords.AddOutcome`: counters are unbounded integers. The 32-bit
  overflow of a column is not modelled.
- `Statistics.TopRows`: the `(int)` cast of the page offset is not modelled.
  The offset is page × size, unbounded.
- `Matches.CompareMatches`: `LocalDateTime` is an integer instant, and only
  the sign of its comparison is modelled.
- `AttackPoints.BuildBatch`: of the boxed request fields only the
  own-goal flag and the assister may be null. A null team id, scorer id
  or quarter id makes the repository lookups throw; the model carries
  them as plain integers.
- `QuarterService.CreateQuarterOfMatch`: the three `Integer` fields of the
  quarter request (ordinal and two scores) are taken as present. A null
  score makes the unboxing throw, which is not modelled.
- `Matches.WithTeamA`, `Matches.WithTeamB`, `Matches.GetMatches`: the
  repository queries have no ORDER BY, so their row order is unspecified.
  The model takes it to be table order, which the stable sort then keeps
  among matches of one date.
- `Statistics.GetTopMembers`, `Statistics.GetTopDuoMembers`: a row whose
  user is not found (or a pair key with a null user) yields a record
  without that user. The DTO factories call a one-argument `UserInfo.of`
  that this revision does not declare, so whether such a row throws
  cannot be read from the source.
- `createTokenOfType`'s expiry is the issue time plus the type's
  configured lifetime. `Jwt.ExpiryOf` computes it; its own contract only
  spells that out, so the model cites `Jwt.ExpiryOrder` for it.
- `Participations.CheckEntry`: the event time is whole seconds since
  midnight and the start is 0. `Objects.equals` against
  `Time.valueOf("00:00:00")` compares the full `java.sql.Time` value, which
  includes the date part and milliseconds; the model does not distinguish
  two times with the same second of the day.
- `AttackPoints.SaveAll`: numbers the saved events consecutively from
  `firstId`. An identity column promises only fresh ids, not consecutive
  ones under concurrent inserts.
- `MemberService.QuarterTally`: counts structurally distinct quarter
  values. `Collectors.toSet()` uses the id-based `Quarter.equals`. The two
  agree when one id names one quarter value, as in a consistent table,
  which the model does not require.
- `TeamService.GetTeamsOfUser`: requires every membership row to name a
  stored team, which the foreign key guarantees.

## Findings

| source | as written | input that shows it | evidently intended | confidence | as-written member | corrected member |
|---|---|---|---|---|---|---|
| src/main/java/com/modu/soccer/entity/TeamRecord.java:72 | `this.lose = this.win + lose` adds the lose delta to the freshly updated win count | a record with 3 wins and 1 loss, updated with one loss, ends with 4 losses | `this.lose = this.lose + lose`, so losses grow by the delta | high; not executed | `TeamRecords.UpdateRecordAsWritten`, `TeamRecords.UpdateRecordAsWrittenLosesLosses` | `TeamRecords.UpdateRecord`, `TeamRecords.UpdateRecordAdditive` |
| src/main/java/com/modu/soccer/service/QuarterService.java:74-78 | the side is chosen by `==` on two boxed `Long` team ids, which compares references; ids outside the `Long.valueOf` cache (-128..127) never match | the admin of team 200 editing side A of a quarter between teams 200 and 300 gets "invalid team id" | compare the ids by value (`Objects.equals`) | high; not executed | `QuarterService.UpdateQuarterFormationAsWritten`, `QuarterService.BoxedComparisonRejectsLargeIds` | `QuarterService.UpdateQuarterFormation` |

=== FILE: attack_point.dfy ===
/** Scoring events (`AttackPoint`): goals, assists and own goals, each in
    a team and a quarter, an assist linked to the goal it set up; and the
    service that records a goal with its optional assist. */
module AttackPoints {
  import opened Common
  import Quarters
  import Members

  datatype PointType = Goal | Assist | OwnGoal

  /** `goal` and `assist` hold the object reference (`EntityKey.ref`) of
      the linked event; the `goal_id` column is the id of that object. */
  datatype AttackPoint = AttackPoint(
    key: EntityKey,
    team: int,
    quarter: int,
    user: Option<int>,
    goal: Option<nat>,
    assist: Option<nat>,
    kind: PointType,
    eventTime: Option<int>)

  /** `AttackPoint.of`: a new, unsaved event with no links. */
  function Of(ref: nat, team: int, quarter: int, user: int, kind: PointType,
              eventTime: Option<int>): (p: AttackPoint)
    ensures p.key.ref == ref && p.key.id.None?
    ensures p.team == team && p.quarter == quarter && p.user == Some(user)
    ensures p.kind == kind && p.eventTime == eventTime
    ensures p.goal.None? && p.assist.None?
  {
    AttackPoint(EntityKey(ref, None), team, quarter, Some(user), None, None, kind, eventTime)
  }

  predicate IsOwnGoal(p: AttackPoint) {
    p.kind == OwnGoal
  }

  /** The body of a goal submission. The own-goal flag is a boxed
      `Boolean` that the client may omit (`None`). */
  datatype GoalRequest = GoalRequest(
    teamId: int,
    scoringUserId: int,
    assistUserId: Option<int>,
    eventTime: Option<int>,
    isOwnGoal: Option<bool>)

  /** `validateAndGetUserCondition`: the user must exist and hold a
      membership row of any status in the team. */
  function ValidateAndGetUserCondition(users: map<int, User>, members: seq<Members.TeamMember>,
                                       team: int, userId: int): (r: Result<int>)
    ensures r.Ok? <==> userId in users && Members.FindByTeamAndUser(members, team, userId).Some?
    ensures r.Ok? ==> r.value == userId
    ensures userId !in users ==> r == Err(ResourceNotFound("user"))
    ensures userId in users && r.Err? ==> r == Err(ResourceNotFound("team member"))
  {
    if userId !in users then Err(ResourceNotFound("user"))
    else if Members.FindByTeamAndUser(members, team, userId).None? then
      Err(ResourceNotFound("team member"))
    else Ok(userId)
  }

  /** The quarter checks both endpoints make: the quarter must exist and
      belong to the match in the path. */
  function QuarterOfMatch(quarters: seq<Quarters.Quarter>, matchId: int, quarterId: int)
    : (r: Result<Quarters.Quarter>)
    ensures Quarters.FindIndexById(quarters, quarterId).None? <==> r == Err(ResourceNotFound("quarter"))
    ensures r.Ok? ==> r.value in quarters && r.value.key.id == Some(quarterId) && r.value.matchId == matchId
    ensures r.Err? && r.error != ResourceNotFound("quarter") ==>
            r.error == IllegalArgument("invalid matchId and quarterId")
  {
    match Quarters.FindIndexById(quarters, quarterId)
    case None => Err(ResourceNotFound("quarter"))
    case Some(i) =>
      if quarters[i].matchId != matchId then Err(IllegalArgument("invalid matchId and quarterId"))
      else Ok(quarters[i])
  }

  /** The 1- or 2-row batch of a goal submission, before saving: the goal
      (or own goal) and, when an assister is named, an assist with the
      same team, quarter and time, the two linked both ways. An assist on
      an own goal is built like any other. Unboxing an omitted own-goal
      flag throws after the scorer check and before the assister check. */
  function BuildBatch(users: map<int, User>, members: seq<Members.TeamMember>, quarterId: int,
                      req: GoalRequest, goalRef: nat, assistRef: nat): (r: Result<seq<AttackPoint>>)
    ensures r.Ok? <==>
      && ValidateAndGetUserCondition(users, members, req.teamId, req.scoringUserId).Ok?
      && req.isOwnGoal.Some?
      && (req.assistUserId.Some? ==>
            ValidateAndGetUserCondition(users, members, req.teamId, req.assistUserId.value).Ok?)
    ensures ValidateAndGetUserCondition(users, members, req.teamId, req.scoringUserId).Err? ==>
            r == Err(ValidateAndGetUserCondition(users, members, req.teamId, req.scoringUserId).error)
    ensures (ValidateAndGetUserCondition(users, members, req.teamId, req.scoringUserId).Ok?
             && req.isOwnGoal.None?) ==> r == Err(NullPointer)
    ensures (ValidateAndGetUserCondition(users, members, req.teamId, req.scoringUserId).Ok?
             && req.isOwnGoal.Some? && req.assistUserId.Some?
             && ValidateAndGetUserCondition(users, members, req.teamId, req.assistUserId.value).Err?) ==>
            r == Err(ValidateAndGetUserCondition(users, members, req.teamId, req.assistUserId.value).error)
    ensures r.Err? ==> r.error == ResourceNotFound("user") || r.error == ResourceNotFound("team member")
                       || r.error == NullPointer
    ensures r.Ok? ==> |r.value| == (if req.assistUserId.None? then 1 else 2)
    ensures r.Ok? ==> var g := r.value[0];
      && g.key == EntityKey(goalRef, None)
      && req.isOwnGoal.Some?
      && g.kind == (if req.isOwnGoal.value then OwnGoal else Goal)
      && g.team == req.teamId && g.quarter == quarterId
      && g.user == Some(req.scoringUserId) && g.eventTime == req.eventTime
      && g.goal.None?
      && (|r.value| == 1 ==> g.assist.None?)
    ensures r.Ok? && |r.value| == 2 ==> var g, a := r.value[0], r.value[1];
      && a.key == EntityKey(assistRef, None)
      && a.kind == Assist && a.user == req.assistUserId
      && a.team == g.team && a.quarter == g.quarter && a.eventTime == g.eventTime
      && a.goal == Some(g.key.ref) && g.assist == Some(a.key.ref)
      && a.assist.None?
  {
    var scorer :- ValidateAndGetUserCondition(users, members, req.teamId, req.scoringUserId);
    var ownGoal :- (match req.isOwnGoal
                    case None => Err(NullPointer)
                    case Some(b) => Ok(b));
    var goal := Of(goalRef, req.teamId, quarterId, scorer,
                   if ownGoal then OwnGoal else Goal, req.eventTime);
    match req.assistUserId
    case None => Ok([goal])
    case Some(assistUserId) =>
      var assister :- ValidateAndGetUserCondition(users, members, req.teamId, assistUserId);
      var assist := Of(assistRef, req.teamId, quarterId, assister, Assist, req.eventTime);
      Ok([goal.(assist := Some(assistRef)), assist.(goal := Some(goalRef))])
  }

  /** `saveAll`: the batch is appended in order under consecutive new ids. */
  function SaveAll(events: seq<AttackPoint>, batch: seq<AttackPoint>, firstId: nat): (r: seq<AttackPoint>)
    ensures |r| == |events| + |batch|
    ensures r[..|events|] == events
    ensures forall i :: 0 <= i < |batch| ==>
      r[|events| + i] == batch[i].(key := batch[i].key.(id := Some(firstId + i)))
  {
    events + seq(|batch|, i requires 0 <= i < |batch| =>
                   batch[i].(key := batch[i].key.(id := Some(firstId + i))))
  }

  /** No stored event uses the reference or the id. */
  ghost predicate FreshFor(events: seq<AttackPoint>, ref: nat) {
    forall i :: 0 <= i < |events| ==> events[i].key.ref != ref
  }

  /** `addAttackPoint`: after the quarter checks and the user checks the
      batch is saved; any failure saves nothing. */
  function AddAttackPoint(users: map<int, User>, members: seq<Members.TeamMember>,
                          quarters: seq<Quarters.Quarter>, events: seq<AttackPoint>,
                          matchId: int, quarterId: int, req: GoalRequest,
                          goalRef: nat, assistRef: nat, firstId: nat): (r: Result<seq<AttackPoint>>)
    requires goalRef != assistRef && FreshFor(events, goalRef) && FreshFor(events, assistRef)
    ensures QuarterOfMatch(quarters, matchId, quarterId).Err? ==>
            r == Err(QuarterOfMatch(quarters, matchId, quarterId).error)
    ensures QuarterOfMatch(quarters, matchId, quarterId).Ok? ==>
            match BuildBatch(users, members, quarterId, req, goalRef, assistRef)
            case Err(e) => r == Err(e)
            case Ok(batch) => r == Ok(SaveAll(events, batch, firstId))
    ensures r.Ok? ==> r.value[..|events|] == events
    ensures r.Ok? ==> |r.value| == |events| + (if req.assistUserId.None? then 1 else 2)
  {
    var _ :- QuarterOfMatch(quarters, matchId, quarterId);
    var batch :- BuildBatch(users, members, quarterId, req, goalRef, assistRef);
    Ok(SaveAll(events, batch, firstId))
  }

  /** After a goal with an assist is saved, the assist links to the goal and
      the goal to the assist, and no other stored event links to either. */
  lemma AddAttackPointLinks(users: map<int, User>, members: seq<Members.TeamMember>,
                            quarters: seq<Quarters.Quarter>, events: seq<AttackPoint>,
                            matchId: int, quarterId: int, req: GoalRequest,
                            goalRef: nat, assistRef: nat, firstId: nat)
    requires goalRef != assistRef && FreshFor(events, goalRef) && FreshFor(events, assistRef)
    requires forall i :: 0 <= i < |events| ==> events[i].goal != Some(goalRef)
    requires AddAttackPoint(users, members, quarters, events, matchId, quarterId, req,
                            goalRef, assistRef, firstId).Ok?
    requires req.assistUserId.Some?
    ensures var r := AddAttackPoint(users, members, quarters, events, matchId, quarterId, req,
                                    goalRef, assistRef, firstId).value;
            var g, a := r[|events|], r[|events| + 1];
            && a.goal == Some(g.key.ref) && g.assist == Some(a.key.ref)
            && g.key.id == Some(firstId as int) && a.key.id == Some(firstId + 1)
            && (forall i :: 0 <= i < |r| && r[i].goal == Some(g.key.ref) ==> i == |events| + 1)
  {
    var batch := BuildBatch(users, members, quarterId, req, goalRef, assistRef).value;
    var r := SaveAll(events, batch, firstId);
    assert r[|events|] == batch[0].(key := batch[0].key.(id := Some(firstId + 0)));
    assert r[|events| + 1] == batch[1].(key := batch[1].key.(id := Some(firstId + 1)));
    forall i | 0 <= i < |r| && r[i].goal == Some(goalRef)
      ensures i == |events| + 1
    {
    }
  }

  /** `findAllGoalsOfQuarter`: the quarter's events that are not assists,
      in table order. */
  function FindAllGoalsOfQuarter(events: seq<AttackPoint>, quarterId: int): (r: seq<AttackPoint>)
    ensures forall p :: p in r <==> p in events && p.quarter == quarterId && p.kind != Assist
    ensures |r| <= |events|
  {
    if |events| == 0 then []
    else
      (if events[0].quarter == quarterId && events[0].kind != Assist then [events[0]] else [])
      + FindAllGoalsOfQuarter(events[1..], quarterId)
  }

  /** `getGoalsOfQuarter`: the same quarter checks, then the read. */
  function GetGoalsOfQuarter(quarters: seq<Quarters.Quarter>, events: seq<AttackPoint>,
                             matchId: int, quarterId: int): (r: Result<seq<AttackPoint>>)
    ensures QuarterOfMatch(quarters, matchId, quarterId).Err? <==> r.Err?
    ensures r.Err? ==> r.error == QuarterOfMatch(quarters, matchId, quarterId).error
    ensures r.Ok? ==> forall p :: p in r.value <==>
      p in events && p.quarter == quarterId && p.kind != Assist
  {
    var _ :- QuarterOfMatch(quarters, matchId, quarterId);
    Ok(FindAllGoalsOfQuarter(events, quarterId))
  }
}

=== FILE: common.dfy ===
/** Shared vocabulary of the match-recording back end: optional values, the
    error codes its services raise, results, the id-based identity every
    persisted entity shares, and first-match search over a table. */
module Common {

  datatype Option<+T> = None | Some(value: T)

  /** The exceptions the services throw, by error code. `IllegalArgument`
      stands for `IllegalArgumentException` (and its subclass
      `NumberFormatException`), `NoSuchElement` for `NoSuchElementException`,
      `NullPointer` for the `NullPointerException` of unboxing a null. */
  datatype Error =
    | ResourceNotFound(resource: string)
    | Forbidden
    | NoPermissionOnTeam
    | InvalidParam(message: string)
    | AlreadyExistMember
    | AlreadyRequestedJoin
    | AuthenticationFailed
    | IllegalArgument(message: string)
    | NoSuchElement
    | NullPointer

  /** A service call either returns a value or throws; a thrown call leaves
      every store as it was (the transaction rolls back). */
  datatype Result<+T> = Ok(value: T) | Err(error: Error) {
    predicate IsFailure() {
      Err?
    }

    function PropagateFailure<U>(): Result<U>
      requires Err?
    {
      Err(error)
    }

    function Extract(): T
      requires Ok?
    {
      value
    }
  }

  /** The part of a user account the core reads. */
  datatype User = User(id: int, name: string, email: string)

  /** Identity of an entity object: `ref` stands for the Java object
      reference, `id` for the generated primary key (None until saved). */
  datatype EntityKey = EntityKey(ref: nat, id: Option<int>)

  /** The key of a row read back from the database under id `n`. */
  function Persisted(n: nat): (k: EntityKey)
    ensures k.id == Some(n as int)
  {
    EntityKey(n, Some(n))
  }

  /** The `equals` that every entity overrides: the same object, or two
      objects that both carry the same non-null id. */
  predicate SameEntity(a: EntityKey, b: EntityKey) {
    a.ref == b.ref || (a.id.Some? && a.id == b.id)
  }

  const TwoTo32: int := 0x1_0000_0000
  const TwoTo64: int := 0x1_0000_0000_0000_0000

  /** The low 32 bits of `x` read as a signed Java `int`. */
  function ToInt32(x: int): (r: int)
    ensures -0x8000_0000 <= r < 0x8000_0000
    ensures (x - r) % TwoTo32 == 0
  {
    var m := x % TwoTo32;
    if m >= 0x8000_0000 then m - TwoTo32 else m
  }

  /** `Long.hashCode`: the exclusive or of the two 32-bit halves. */
  function LongHashCode(v: int): int {
    var u := (v % TwoTo64) as bv64;
    ToInt32(((u ^ (u >> 32)) & 0xFFFF_FFFF) as int)
  }

  /** `Objects.hash(id)`, the hash of the entities that use it:
      31 * 1 plus the id's own hash, or plus 0 for a null id. */
  function IdHash(k: EntityKey): int {
    ToInt32(31 + match k.id case None => 0 case Some(v) => LongHashCode(v))
  }

  /** Equal entities hash alike, because the hash reads the id alone. One
      object has one id, which is what the second requires says. */
  lemma EqualEntitiesHashAlike(a: EntityKey, b: EntityKey)
    requires SameEntity(a, b)
    requires a.ref == b.ref ==> a.id == b.id
    ensures IdHash(a) == IdHash(b)
    ensures a.id == b.id
  {
  }

  /** An unsaved object (null id) equals no other object. */
  lemma UnsavedEqualsOnlyItself(a: EntityKey, b: EntityKey)
    requires a.id.None?
    ensures SameEntity(a, b) <==> a.ref == b.ref
  {
  }

  /** Index of the first element of `s` that satisfies `p`. */
  function FirstIndex<T>(s: seq<T>, p: T -> bool): (r: Option<nat>)
    ensures r.Some? ==> r.value < |s| && p(s[r.value])
    ensures r.Some? ==> forall j :: 0 <= j < r.value ==> !p(s[j])
    ensures r.None? <==> forall j :: 0 <= j < |s| ==> !p(s[j])
  {
    if |s| == 0 then None
    else if p(s[0]) then Some(0)
    else match FirstIndex(s[1..], p)
      case None => None
      case Some(i) => Some(i + 1)
  }
}

=== FILE: grouping.dfy ===
/** `group by key ... count(*) ... order by count desc limit L offset O`
    over a sequence of keys: occurrence counts, the distinct keys, one
    admissible count-descending order, and paging. */
module Grouping {
  import opened Common

  /** Number of occurrences of `k` in `xs`. */
  function Occ<K(==)>(xs: seq<K>, k: K): nat {
    if |xs| == 0 then 0
    else Occ(xs[..|xs| - 1], k) + (if xs[|xs| - 1] == k then 1 else 0)
  }

  lemma OccAppend<K>(xs: seq<K>, x: K, k: K)
    ensures Occ(xs + [x], k) == Occ(xs, k) + (if x == k then 1 else 0)
  {
    assert (xs + [x])[..|xs|] == xs;
  }

  lemma {:induction false} OccConcat<K>(xs: seq<K>, ys: seq<K>, k: K)
    ensures Occ(xs + ys, k) == Occ(xs, k) + Occ(ys, k)
  {
    if |ys| > 0 {
      var init := ys[..|ys| - 1];
      var y := ys[|ys| - 1];
      assert ys == init + [y];
      assert xs + ys == (xs + init) + [y];
      OccConcat(xs, init, k);
      OccAppend(xs + init, y, k);
      OccAppend(init, y, k);
    } else {
      assert xs + ys == xs;
    }
  }

  /** A key occurs exactly when it is an element. */
  lemma {:induction false} OccPositive<K>(xs: seq<K>, k: K)
    ensures Occ(xs, k) > 0 <==> k in xs
  {
    if |xs| > 0 {
      var init := xs[..|xs| - 1];
      OccPositive(init, k);
      assert xs == init + [xs[|xs| - 1]];
    }
  }

  /** The `where` clause and the selected column: the keys `f` gives to
      the elements it keeps, in order. */
  function FilterMap<T, K>(s: seq<T>, f: T -> Option<K>): (r: seq<K>)
    ensures |r| <= |s|
  {
    if |s| == 0 then []
    else
      FilterMap(s[..|s| - 1], f)
      + match f(s[|s| - 1]) case None => [] case Some(k) => [k]
  }

  /** Positions of `s` whose element `f` maps to `k`. */
  ghost function Hits<T, K>(s: seq<T>, f: T -> Option<K>, k: K): set<nat> {
    set i: nat | i < |s| && f(s[i]) == Some(k)
  }

  /** The positions hit in `s` are those hit before its last element,
      plus the last position if it is hit too. */
  lemma HitsStep<T, K>(s: seq<T>, f: T -> Option<K>, k: K)
    requires |s| > 0
    ensures Hits(s, f, k) == Hits(s[..|s| - 1], f, k) + (if f(s[|s| - 1]) == Some(k) then {|s| - 1} else {})
    ensures |s| - 1 !in Hits(s[..|s| - 1], f, k)
  {
  }

  /** A zero- or one-element tail holds `k` once exactly when it is `k`. */
  lemma OccOption<K>(o: Option<K>, k: K)
    ensures Occ(match o case None => [] case Some(x) => [x], k) == if o == Some(k) then 1 else 0
  {
    if o.Some? {
      OccAppend([], o.value, k);
      assert [o.value] == [] + [o.value];
    }
  }

  /** The number of rows a filter-map gives key `k` is the number of
      positions of `s` whose element `f` maps to `k`. */
  lemma {:induction false} OccFilterMap<T, K>(s: seq<T>, f: T -> Option<K>, k: K)
    ensures Occ(FilterMap(s, f), k) == |Hits(s, f, k)|
  {
    if |s| > 0 {
      var n := |s| - 1;
      var tail := match f(s[n]) case None => [] case Some(x) => [x];
      assert FilterMap(s, f) == FilterMap(s[..n], f) + tail;
      OccFilterMap(s[..n], f, k);
      OccConcat(FilterMap(s[..n], f), tail, k);
      OccOption(f(s[n]), k);
      HitsStep(s, f, k);
    }
  }

  ghost predicate NoDuplicates<K>(ks: seq<K>) {
    forall i, j :: 0 <= i < j < |ks| ==> ks[i] != ks[j]
  }

  /** The distinct elements of `xs`, in order of first occurrence. */
  function Distinct<K(==)>(xs: seq<K>): (d: seq<K>)
    ensures NoDuplicates(d)
    ensures |d| <= |xs|
    ensures forall i :: 0 <= i < |d| ==> d[i] in xs
    ensures forall i :: 0 <= i < |xs| ==> xs[i] in d
  {
    if |xs| == 0 then []
    else
      var init := xs[..|xs| - 1];
      var x := xs[|xs| - 1];
      assert xs == init + [x];
      var d := Distinct(init);
      if x in d then d else d + [x]
  }

  /** A duplicate-free sequence has as many elements as its set. */
  lemma {:induction false} NoDuplicatesCard<K>(d: seq<K>)
    requires NoDuplicates(d)
    ensures |set x | x in d| == |d|
  {
    if |d| > 0 {
      var init := d[..|d| - 1];
      var x := d[|d| - 1];
      assert d == init + [x];
      NoDuplicatesCard(init);
      assert x !in init;
      assert (set y | y in d) == (set y | y in init) + {x};
    } else {
      assert (set y | y in d) == {};
    }
  }

  /** The distinct elements are as many as the elements of the set of `xs`
      (what `Collectors.toSet()` collects). */
  lemma DistinctCard<K>(xs: seq<K>)
    ensures |Distinct(xs)| == |set x | x in xs|
  {
    var d := Distinct(xs);
    NoDuplicatesCard(d);
    assert (set x | x in d) == (set x | x in xs);
  }

  datatype Row<K> = Row(key: K, count: nat)

  /** One row per distinct key, in first-occurrence order. */
  function Tally<K(==)>(xs: seq<K>): (rows: seq<Row<K>>) {
    var d := Distinct(xs);
    seq(|d|, i requires 0 <= i < |d| => Row(d[i], Occ(xs, d[i])))
  }

  ghost predicate DistinctKeys<K>(rows: seq<Row<K>>) {
    forall i, j :: 0 <= i < j < |rows| ==> rows[i].key != rows[j].key
  }

  /** Non-increasing counts. */
  ghost predicate CountDescending<K>(rows: seq<Row<K>>) {
    forall i, j :: 0 <= i < j < |rows| ==> rows[i].count >= rows[j].count
  }

  /** What the grouping query promises, whatever order it gives ties: one
      row per distinct key of `xs`, no other rows, each with the key's exact
      count, ordered by count descending. */
  ghost predicate IsRanking<K>(xs: seq<K>, rows: seq<Row<K>>) {
    && DistinctKeys(rows)
    && (forall i :: 0 <= i < |rows| ==> rows[i].count == Occ(xs, rows[i].key) && rows[i].key in xs)
    && (forall j :: 0 <= j < |xs| ==> exists i :: 0 <= i < |rows| && rows[i].key == xs[j])
    && CountDescending(rows)
  }

  /** Places `r` after every row with a count at least as large. */
  function Insert<K>(r: Row<K>, rows: seq<Row<K>>): (out: seq<Row<K>>)
    ensures multiset(out) == multiset(rows) + multiset{r}
  {
    if |rows| == 0 then [r]
    else if rows[0].count >= r.count then
      assert rows == [rows[0]] + rows[1..];
      [rows[0]] + Insert(r, rows[1..])
    else [r] + rows
  }

  /** Insertion sort by count, descending. */
  function SortByCount<K>(rows: seq<Row<K>>): (out: seq<Row<K>>)
    ensures multiset(out) == multiset(rows)
  {
    if |rows| == 0 then []
    else
      assert rows == [rows[0]] + rows[1..];
      Insert(rows[0], SortByCount(rows[1..]))
  }

  /** The grouping query with one admissible tie order. */
  function Rank<K(==)>(xs: seq<K>): seq<Row<K>> {
    SortByCount(Tally(xs))
  }

  lemma MultisetMember<T>(s: seq<T>, t: seq<T>, x: T)
    requires multiset(s) == multiset(t)
    ensures x in s <==> x in t
  {
    assert x in s <==> x in multiset(s);
    assert x in t <==> x in multiset(t);
  }

  lemma PrependKeepsDescending<K>(r: Row<K>, rows: seq<Row<K>>)
    requires CountDescending(rows)
    requires forall y :: y in rows ==> y.count <= r.count
    ensures CountDescending([r] + rows)
  {
    var out := [r] + rows;
    forall i, j | 0 <= i < j < |out|
      ensures out[i].count >= out[j].count
    {
      if i == 0 {
        assert out[j] == rows[j - 1];
        assert out[j] in rows;
      } else {
        assert out[i] == rows[i - 1] && out[j] == rows[j - 1];
      }
    }
  }

  lemma {:induction false} InsertKeepsDescending<K>(r: Row<K>, rows: seq<Row<K>>)
    requires CountDescending(rows)
    ensures CountDescending(Insert(r, rows))
  {
    if |rows| == 0 {
    } else if rows[0].count >= r.count {
      var rest := Insert(r, rows[1..]);
      InsertKeepsDescending(r, rows[1..]);
      forall y | y in rest
        ensures y.count <= rows[0].count
      {
        assert y in multiset(rest);
        if y != r {
          assert y in multiset(rows[1..]);
          var k :| 0 <= k < |rows[1..]| && rows[1..][k] == y;
          assert rows[k + 1] == y;
        }
      }
      PrependKeepsDescending(rows[0], rest);
    } else {
      forall y | y in rows
        ensures y.count <= r.count
      {
        var k :| 0 <= k < |rows| && rows[k] == y;
        assert k == 0 || rows[0].count >= rows[k].count;
      }
      PrependKeepsDescending(r, rows);
    }
  }

  lemma {:induction false} SortByCountDescending<K>(rows: seq<Row<K>>)
    ensures CountDescending(SortByCount(rows))
  {
    if |rows| > 0 {
      SortByCountDescending(rows[1..]);
      InsertKeepsDescending(rows[0], SortByCount(rows[1..]));
    }
  }

  /** A sequence with two equal elements at distinct positions holds that
      element at least twice. */
  lemma TwiceInMultiset<T>(s: seq<T>, i: nat, j: nat)
    requires i < j < |s| && s[i] == s[j]
    ensures multiset(s)[s[i]] >= 2
  {
    var x := s[i];
    assert s == s[..j] + [s[j]] + s[j + 1..];
    assert s[..j][i] == x;
    assert x in multiset(s[..j]);
  }

  /** A permutation of rows with distinct keys has distinct keys. */
  lemma PermutationKeepsDistinctKeys<K>(rows: seq<Row<K>>, out: seq<Row<K>>)
    requires DistinctKeys(rows)
    requires multiset(out) == multiset(rows)
    ensures DistinctKeys(out)
  {
    forall i, j | 0 <= i < j < |out|
      ensures out[i].key != out[j].key
    {
      MultisetMember(out, rows, out[i]);
      MultisetMember(out, rows, out[j]);
      var a :| 0 <= a < |rows| && rows[a] == out[i];
      var b :| 0 <= b < |rows| && rows[b] == out[j];
      if out[i].key == out[j].key {
        assert a == b;
        TwiceInMultiset(out, i, j);
        assert multiset(rows)[rows[a]] >= 2;
        forall c | 0 <= c < |rows| && c != a
          ensures rows[c] != rows[a]
        {
        }
        MultiplicityOne(rows, a);
        assert false;
      }
    }
  }

  /** In rows with distinct keys every row occurs once. */
  lemma {:induction false} MultiplicityOne<K>(rows: seq<Row<K>>, a: nat)
    requires DistinctKeys(rows)
    requires a < |rows|
    ensures multiset(rows)[rows[a]] == 1
  {
    var x := rows[a];
    assert rows == rows[..a] + [x] + rows[a + 1..];
    assert x !in rows[..a];
    assert x !in rows[a + 1..];
    assert multiset(rows[..a])[x] == 0;
    assert multiset(rows[a + 1..])[x] == 0;
  }

  /** The tally is an exact, complete grouping with distinct keys. */
  lemma TallyExact<K>(xs: seq<K>)
    ensures DistinctKeys(Tally(xs))
    ensures forall i :: 0 <= i < |Tally(xs)| ==>
      Tally(xs)[i].count == Occ(xs, Tally(xs)[i].key) && Tally(xs)[i].key in xs
    ensures forall j :: 0 <= j < |xs| ==> exists i :: 0 <= i < |Tally(xs)| && Tally(xs)[i].key == xs[j]
  {
    var d := Distinct(xs);
    var t := Tally(xs);
    forall j | 0 <= j < |xs|
      ensures exists i :: 0 <= i < |t| && t[i].key == xs[j]
    {
      var i :| 0 <= i < |d| && d[i] == xs[j];
      assert t[i].key == xs[j];
    }
  }

  /** The concrete query result is one the grouping query may return. */
  lemma RankIsRanking<K>(xs: seq<K>)
    ensures IsRanking(xs, Rank(xs))
  {
    var t := Tally(xs);
    var r := Rank(xs);
    TallyExact(xs);
    SortByCountDescending(t);
    PermutationKeepsDistinctKeys(t, r);
    forall i | 0 <= i < |r|
      ensures r[i].count == Occ(xs, r[i].key) && r[i].key in xs
    {
      MultisetMember(r, t, r[i]);
    }
    forall m | 0 <= m < |xs|
      ensures exists i :: 0 <= i < |r| && r[i].key == xs[m]
    {
      var j :| 0 <= j < |t| && t[j].key == xs[m];
      MultisetMember(r, t, t[j]);
      var i :| 0 <= i < |r| && r[i] == t[j];
    }
  }

  /** The first row of any ranking of a non-empty sequence holds one of
      its most frequent keys. */
  lemma RankingHeadIsMostFrequent<K>(xs: seq<K>, rows: seq<Row<K>>)
    requires IsRanking(xs, rows)
    requires |xs| > 0
    ensures |rows| > 0 && rows[0].key in xs
    ensures forall x :: x in xs ==> Occ(xs, x) <= Occ(xs, rows[0].key)
  {
    var first := xs[0];
    var i0 :| 0 <= i0 < |rows| && rows[i0].key == first;
    forall x | x in xs
      ensures Occ(xs, x) <= Occ(xs, rows[0].key)
    {
      var j :| 0 <= j < |xs| && xs[j] == x;
      var i :| 0 <= i < |rows| && rows[i].key == xs[j];
      assert rows[0].count >= rows[i].count;
    }
  }

  // ---------------------------------------------------------------------
  // Sums of counts

  function SumCounts<K>(rows: seq<Row<K>>): nat {
    if |rows| == 0 then 0 else rows[0].count + SumCounts(rows[1..])
  }

  lemma {:induction false} SumCountsInsert<K>(r: Row<K>, rows: seq<Row<K>>)
    ensures SumCounts(Insert(r, rows)) == r.count + SumCounts(rows)
  {
    if |rows| > 0 && rows[0].count >= r.count {
      SumCountsInsert(r, rows[1..]);
    }
  }

  lemma {:induction false} SumCountsSort<K>(rows: seq<Row<K>>)
    ensures SumCounts(SortByCount(rows)) == SumCounts(rows)
  {
    if |rows| > 0 {
      SumCountsSort(rows[1..]);
      SumCountsInsert(rows[0], SortByCount(rows[1..]));
    }
  }

  /** Total occurrences in `xs` of the keys listed in `ks`. */
  function SumOcc<K(==)>(xs: seq<K>, ks: seq<K>): nat {
    if |ks| == 0 then 0 else Occ(xs, ks[0]) + SumOcc(xs, ks[1..])
  }

  lemma {:induction false} SumOccAppendKey<K>(xs: seq<K>, ks: seq<K>, k: K)
    ensures SumOcc(xs, ks + [k]) == SumOcc(xs, ks) + Occ(xs, k)
  {
    if |ks| > 0 {
      assert (ks + [k])[1..] == ks[1..] + [k];
      SumOccAppendKey(xs, ks[1..], k);
    }
  }

  /** Adding one element to `xs` adds one to the sum over distinct keys
      that list it, and nothing over keys that do not. */
  lemma {:induction false} SumOccAppendElement<K>(xs: seq<K>, x: K, ks: seq<K>)
    requires NoDuplicates(ks)
    ensures SumOcc(xs + [x], ks) == SumOcc(xs, ks) + (if x in ks then 1 else 0)
  {
    if |ks| > 0 {
      OccAppend(xs, x, ks[0]);
      assert NoDuplicates(ks[1..]);
      SumOccAppendElement(xs, x, ks[1..]);
      assert x in ks <==> x == ks[0] || x in ks[1..];
      if x == ks[0] {
        assert x !in ks[1..];
      }
    }
  }

  lemma {:induction false} SumOccDistinct<K>(xs: seq<K>)
    ensures SumOcc(xs, Distinct(xs)) == |xs|
  {
    if |xs| > 0 {
      var init := xs[..|xs| - 1];
      var x := xs[|xs| - 1];
      assert xs == init + [x];
      var d := Distinct(init);
      SumOccDistinct(init);
      SumOccAppendElement(init, x, d);
      if x !in d {
        SumOccAppendKey(xs, d, x);
        OccAppend(init, x, x);
        OccPositive(init, x);
        assert Occ(init, x) == 0;
      }
    }
  }

  lemma {:induction false} SumCountsTally<K>(xs: seq<K>, ks: seq<K>)
    ensures SumCounts(seq(|ks|, i requires 0 <= i < |ks| => Row(ks[i], Occ(xs, ks[i]))))
            == SumOcc(xs, ks)
  {
    if |ks| > 0 {
      var rows := seq(|ks|, i requires 0 <= i < |ks| => Row(ks[i], Occ(xs, ks[i])));
      SumCountsTally(xs, ks[1..]);
      assert rows[1..] == seq(|ks[1..]|, i requires 0 <= i < |ks[1..]| => Row(ks[1..][i], Occ(xs, ks[1..][i])));
    }
  }

  /** The counts of the complete ranking add up to the number of grouped
      elements: every element is counted once, under its own key. */
  lemma RankCountsSum<K>(xs: seq<K>)
    ensures SumCounts(Rank(xs)) == |xs|
  {
    SumCountsSort(Tally(xs));
    SumCountsTally(xs, Distinct(xs));
    SumOccDistinct(xs);
  }

  // ---------------------------------------------------------------------
  // Paging

  /** `limit L offset O`: the slice starting at O, at most L long. */
  function Page<T>(rows: seq<T>, limit: nat, offset: nat): (p: seq<T>)
    ensures |p| <= limit
    ensures offset <= |rows| ==> |p| == if |rows| - offset < limit then |rows| - offset else limit
    ensures offset >= |rows| ==> p == []
    ensures forall i :: 0 <= i < |p| ==> offset + i < |rows| && p[i] == rows[offset + i]
  {
    if offset >= |rows| then []
    else if |rows| - offset <= limit then rows[offset..]
    else rows[offset..offset + limit]
  }

  /** A page of a count-descending list is count-descending, and pages of
      a list with distinct keys have distinct keys. */
  lemma PageKeepsOrder<K>(rows: seq<Row<K>>, limit: nat, offset: nat)
    ensures CountDescending(rows) ==> CountDescending(Page(rows, limit, offset))
    ensures DistinctKeys(rows) ==> DistinctKeys(Page(rows, limit, offset))
  {
    var p := Page(rows, limit, offset);
    if CountDescending(rows) {
      forall i, j | 0 <= i < j < |p|
        ensures p[i].count >= p[j].count
      {
        assert p[i] == rows[offset + i] && p[j] == rows[offset + j];
      }
    }
    if DistinctKeys(rows) {
      forall i, j | 0 <= i < j < |p|
        ensures p[i].key != p[j].key
      {
        assert p[i] == rows[offset + i] && p[j] == rows[offset + j];
      }
    }
  }

  /** Two consecutive pages of size L are the page of size 2L. */
  lemma ConsecutivePages<T>(rows: seq<T>, limit: nat, offset: nat)
    ensures Page(rows, limit, offset) + Page(rows, limit, offset + limit) == Page(rows, 2 * limit, offset)
  {
    var a, b, c := Page(rows, limit, offset), Page(rows, limit, offset + limit), Page(rows, 2 * limit, offset);
    assert |a + b| == |c|;
    forall i | 0 <= i < |c|
      ensures (a + b)[i] == c[i]
    {
      if i < |a| {
      } else {
        assert (a + b)[i] == b[i - |a|];
      }
    }
  }

  /** The grouping query with its paging: the page of one admissible
      ranking, which on a first page at least as long as the input is the
      whole ranking. */
  function RankPage<K(==,!new)>(xs: seq<K>, limit: nat, offset: nat): (r: seq<Row<K>>)
    ensures |r| <= limit
    ensures DistinctKeys(r) && CountDescending(r)
    ensures forall i :: 0 <= i < |r| ==> r[i].count == Occ(xs, r[i].key) && r[i].key in xs
    ensures exists full :: IsRanking(xs, full) && r == Page(full, limit, offset)
    ensures offset == 0 && |xs| <= limit ==> IsRanking(xs, r)
  {
    var full := Rank(xs);
    RankIsRanking(xs);
    PageKeepsOrder(full, limit, offset);
    assert |full| == |Tally(xs)| by {
      assert |multiset(full)| == |multiset(Tally(xs))|;
    }
    Page(full, limit, offset)
  }
}

=== FILE: jwt.dfy ===
/** The bearer-token header stripper (the `Authorization` request header
    of section 2.1 of RFC 6750) and the expiry arithmetic of token
    creation. Signing and parsing are outside the model. */
module Jwt {
  import opened Common

  const BearerPrefix: string := "Bearer "

  /** `getJwtTokenFromHeader`: the header must be present and start with
      exactly `Bearer ` (case-sensitive, one space); the token is the rest. */
  function GetJwtTokenFromHeader(header: Option<string>): (r: Result<string>)
    ensures r.Ok? <==> header.Some? && BearerPrefix <= header.value
    ensures r.Err? ==> r.error == AuthenticationFailed
    ensures r.Ok? ==> BearerPrefix + r.value == header.value
    ensures r.Ok? ==> |r.value| == |header.value| - 7
  {
    match header
    case None => Err(AuthenticationFailed)
    case Some(h) =>
      if !(BearerPrefix <= h) then Err(AuthenticationFailed)
      else
        assert h == BearerPrefix + h[|BearerPrefix|..];
        Ok(h[|BearerPrefix|..])
  }

  /** Any token, the empty one included, survives a trip through the
      header. */
  lemma BearerRoundTrip(t: string)
    ensures GetJwtTokenFromHeader(Some(BearerPrefix + t)) == Ok(t)
  {
    assert BearerPrefix <= BearerPrefix + t;
    assert (BearerPrefix + t)[|BearerPrefix|..] == t;
  }

  /** A scheme spelled otherwise, such as lower-case `bearer `, is
      refused. */
  lemma LowerCaseSchemeRefused(t: string)
    ensures GetJwtTokenFromHeader(Some("bearer " + t)) == Err(AuthenticationFailed)
  {
    assert ("bearer " + t)[0] == 'b';
  }

  /** The token types; `OtherTokenType` stands for every constant of the
      enum besides the two that carry a lifetime. */
  datatype TokenType = AuthAccessToken | AuthRefreshToken | OtherTokenType(name: string)

  /** The expiry of `createTokenOfType`, in milliseconds since the epoch:
      the issue time plus the configured lifetime of the type. */
  function ExpiryOf(issuedAt: int, t: TokenType, accessTokenExpireMillis: int,
                    refreshTokenExpireMillis: int): (r: Result<int>)
    ensures r.Err? <==> t.OtherTokenType?
    ensures r.Err? ==> r.error == IllegalArgument("invalid token type")
    ensures t == AuthAccessToken ==> r == Ok(issuedAt + accessTokenExpireMillis)
    ensures t == AuthRefreshToken ==> r == Ok(issuedAt + refreshTokenExpireMillis)
    ensures r.Ok? && accessTokenExpireMillis >= 0 && refreshTokenExpireMillis >= 0 ==> r.value >= issuedAt
  {
    match t
    case AuthAccessToken => Ok(issuedAt + accessTokenExpireMillis)
    case AuthRefreshToken => Ok(issuedAt + refreshTokenExpireMillis)
    case OtherTokenType(_) => Err(IllegalArgument("invalid token type"))
  }

  /** What callers rely on about expiries: a token's lifetime does not
      depend on when it is issued, a later token of a type never expires
      before an earlier one, and an access token never outlives a refresh
      token issued with it when its configured lifetime is the shorter.
      The lifetime is the one configured for the token's type. */
  lemma ExpiryOrder(t1: int, t2: int, t: TokenType, accessMillis: int, refreshMillis: int)
    requires !t.OtherTokenType?
    ensures ExpiryOf(t1, t, accessMillis, refreshMillis).value - t1
            == (if t == AuthAccessToken then accessMillis else refreshMillis)
    ensures ExpiryOf(t1, t, accessMillis, refreshMillis).value - t1
            == ExpiryOf(t2, t, accessMillis, refreshMillis).value - t2
    ensures t1 <= t2 ==> ExpiryOf(t1, t, accessMillis, refreshMillis).value
                         <= ExpiryOf(t2, t, accessMillis, refreshMillis).value
    ensures accessMillis <= refreshMillis ==>
            ExpiryOf(t1, AuthAccessToken, accessMillis, refreshMillis).value
            <= ExpiryOf(t1, AuthRefreshToken, accessMillis, refreshMillis).value
  {
  }
}

=== FILE: ledger.dfy ===
/** The team-record ledger service: one quarter's score difference becomes
    win/draw/lose deltas for the two teams of the match. */
module Ledger {
  import opened Common
  import opened TeamRecords

  /** Win, draw and lose increments for one team. */
  datatype Deltas = Deltas(win: int, draw: int, lose: int)

  /** The mirror image of a team's deltas: what the opponent receives. */
  function Mirror(d: Deltas): Deltas {
    Deltas(d.lose, d.draw, d.win)
  }

  /** Deltas of team A and team B for a quarter in which A scored `diff`
      more goals than B: exactly one outcome each, mirrored between them. */
  function OutcomeDeltas(diff: int): (r: (Deltas, Deltas))
    ensures r.1 == Mirror(r.0)
    ensures r.0.win + r.0.draw + r.0.lose == 1
    ensures 0 <= r.0.win && 0 <= r.0.draw && 0 <= r.0.lose
    ensures r.0.win == 1 <==> diff > 0
    ensures r.0.draw == 1 <==> diff == 0
    ensures r.0.lose == 1 <==> diff < 0
  {
    if diff > 0 then (Deltas(1, 0, 0), Deltas(0, 0, 1))
    else if diff == 0 then (Deltas(0, 1, 0), Deltas(0, 1, 0))
    else (Deltas(0, 0, 1), Deltas(1, 0, 0))
  }

  /** The deltas of a reversed pairing are the swapped deltas. */
  lemma OutcomeDeltasMirror(diff: int)
    ensures OutcomeDeltas(-diff) == (OutcomeDeltas(diff).1, OutcomeDeltas(diff).0)
  {
  }

  /** `updateTeamRecord(teamAId, teamBId, scoreDifference)`: both teams
      must exist; then A's row and B's row are bulk-updated in turn. */
  function UpdateTeamRecord(teams: set<int>, records: map<int, TeamRecord>,
                            teamA: int, teamB: int, diff: int): (r: Result<map<int, TeamRecord>>)
    ensures r.Err? <==> teamA !in teams || teamB !in teams
    ensures r.Err? ==> r.error == ResourceNotFound("team")
    ensures r.Ok? ==> r.value.Keys == records.Keys
    ensures r.Ok? ==> forall t :: t in records && t != teamA && t != teamB ==> r.value[t] == records[t]
    ensures r.Ok? ==> forall t :: t in records ==>
      && r.value[t].goals == records[t].goals
      && r.value[t].lostGoals == records[t].lostGoals
      && r.value[t].team == records[t].team
    ensures r.Ok? && teamA != teamB && teamA in records ==>
      && Total(r.value[teamA]) == Total(records[teamA]) + 1
      && (diff > 0 ==> r.value[teamA].win == records[teamA].win + 1)
      && (diff == 0 ==> r.value[teamA].draw == records[teamA].draw + 1)
      && (diff < 0 ==> r.value[teamA].lose == records[teamA].lose + 1)
    ensures r.Ok? && teamA != teamB && teamB in records ==>
      && Total(r.value[teamB]) == Total(records[teamB]) + 1
      && (diff > 0 ==> r.value[teamB].lose == records[teamB].lose + 1)
      && (diff == 0 ==> r.value[teamB].draw == records[teamB].draw + 1)
      && (diff < 0 ==> r.value[teamB].win == records[teamB].win + 1)
    ensures r.Ok? && teamA != teamB && teamA in records ==>
      var d := OutcomeDeltas(diff).0;
      r.value[teamA] == records[teamA].(win := records[teamA].win + d.win,
                                        draw := records[teamA].draw + d.draw,
                                        lose := records[teamA].lose + d.lose)
    ensures r.Ok? && teamA != teamB && teamB in records ==>
      var d := OutcomeDeltas(diff).1;
      r.value[teamB] == records[teamB].(win := records[teamB].win + d.win,
                                        draw := records[teamB].draw + d.draw,
                                        lose := records[teamB].lose + d.lose)
    ensures r.Ok? && teamA == teamB && teamA in records ==>
      var (da, db) := OutcomeDeltas(diff);
      r.value[teamA] == records[teamA].(win := records[teamA].win + da.win + db.win,
                                        draw := records[teamA].draw + da.draw + db.draw,
                                        lose := records[teamA].lose + da.lose + db.lose)
  {
    if teamA !in teams then Err(ResourceNotFound("team"))
    else if teamB !in teams then Err(ResourceNotFound("team"))
    else
      var (da, db) := OutcomeDeltas(diff);
      var afterA := AddOutcome(records, teamA, da.win, da.draw, da.lose);
      Ok(AddOutcome(afterA, teamB, db.win, db.draw, db.lose))
  }

  /** Mirror law: recording (A, B, d) has the same effect as recording
      (B, A, -d), errors included. */
  lemma UpdateTeamRecordMirror(teams: set<int>, records: map<int, TeamRecord>,
                               teamA: int, teamB: int, diff: int)
    ensures UpdateTeamRecord(teams, records, teamA, teamB, diff)
            == UpdateTeamRecord(teams, records, teamB, teamA, -diff)
  {
    if teamA in teams && teamB in teams {
      var (da, db) := OutcomeDeltas(diff);
      OutcomeDeltasMirror(diff);
      AddOutcomeCommutes(records, teamA, da.win, da.draw, da.lose, teamB, db.win, db.draw, db.lose);
    }
  }

  /** Each recorded quarter adds exactly one outcome per pairing slot: a
      team's total grows by the number of slots (A and B) it fills. */
  lemma UpdateTeamRecordTotals(teams: set<int>, records: map<int, TeamRecord>,
                               teamA: int, teamB: int, diff: int, t: int)
    requires UpdateTeamRecord(teams, records, teamA, teamB, diff).Ok?
    requires t in records
    ensures Total(UpdateTeamRecord(teams, records, teamA, teamB, diff).value[t])
            == Total(records[t]) + (if t == teamA then 1 else 0) + (if t == teamB then 1 else 0)
  {
    var (da, db) := OutcomeDeltas(diff);
    var afterA := AddOutcome(records, teamA, da.win, da.draw, da.lose);
    assert Total(afterA[t]) == Total(records[t]) + (if t == teamA then 1 else 0);
  }
}

=== FILE: match.dfy ===
/** The `Match` entity, its newest-first ordering, and the match service:
    creation, date edit, listing per team and lookup. */
module Matches {
  import opened Common
  import Members

  /** `matchDateTime` is carried as a totally ordered instant. */
  datatype Match = Match(id: int, teamA: int, teamB: int, matchDateTime: int, createBy: int)

  /** `compareTo`: the negated date comparison, so a later match sorts
      first. Only the sign of `LocalDateTime.compareTo` is modelled. */
  function CompareMatches(a: Match, b: Match): (c: int)
    ensures c < 0 <==> a.matchDateTime > b.matchDateTime
    ensures c == 0 <==> a.matchDateTime == b.matchDateTime
    ensures c > 0 <==> a.matchDateTime < b.matchDateTime
  {
    if a.matchDateTime > b.matchDateTime then -1
    else if a.matchDateTime == b.matchDateTime then 0
    else 1
  }

  /** The comparator is reflexive-zero and antisymmetric in sign. */
  lemma CompareMatchesAntisymmetric(a: Match, b: Match)
    ensures CompareMatches(a, a) == 0
    ensures CompareMatches(a, b) == -CompareMatches(b, a)
  {
  }

  /** Newest first: every match is at least as late as every later one. */
  ghost predicate NewestFirst(ms: seq<Match>) {
    forall i, j :: 0 <= i < j < |ms| ==> ms[i].matchDateTime >= ms[j].matchDateTime
  }

  /** The matches of `ms` dated `d`, in list order. */
  function WithDate(ms: seq<Match>, d: int): seq<Match> {
    if |ms| == 0 then []
    else (if ms[0].matchDateTime == d then [ms[0]] else []) + WithDate(ms[1..], d)
  }

  /** Places `m` after every strictly later match and ahead of the matches
      of its own date, which came after it in the input. */
  function InsertByDate(m: Match, ms: seq<Match>): (r: seq<Match>)
    ensures multiset(r) == multiset(ms) + multiset{m}
  {
    if |ms| == 0 then [m]
    else if ms[0].matchDateTime > m.matchDateTime then
      assert ms == [ms[0]] + ms[1..];
      [ms[0]] + InsertByDate(m, ms[1..])
    else
      [m] + ms
  }

  /** A match no earlier than any match of a newest-first list may head it. */
  lemma PrependKeepsNewestFirst(x: Match, ms: seq<Match>)
    requires NewestFirst(ms)
    requires forall y :: y in ms ==> y.matchDateTime <= x.matchDateTime
    ensures NewestFirst([x] + ms)
  {
    var r := [x] + ms;
    forall i, j | 0 <= i < j < |r|
      ensures r[i].matchDateTime >= r[j].matchDateTime
    {
      if i == 0 {
        assert r[j] == ms[j - 1];
        assert r[j] in ms;
      } else {
        assert r[i] == ms[i - 1] && r[j] == ms[j - 1];
      }
    }
  }

  /** Inserting into a newest-first list keeps it newest first. */
  lemma {:induction false} InsertByDateKeepsOrder(m: Match, ms: seq<Match>)
    requires NewestFirst(ms)
    ensures NewestFirst(InsertByDate(m, ms))
  {
    if |ms| == 0 {
    } else if ms[0].matchDateTime > m.matchDateTime {
      var rest := InsertByDate(m, ms[1..]);
      InsertByDateKeepsOrder(m, ms[1..]);
      forall y | y in rest
        ensures y.matchDateTime <= ms[0].matchDateTime
      {
        assert y in multiset(rest);
        if y != m {
          assert y in multiset(ms[1..]);
          var k :| 0 <= k < |ms[1..]| && ms[1..][k] == y;
          assert ms[k + 1] == y;
        }
      }
      PrependKeepsNewestFirst(ms[0], rest);
    } else {
      forall y | y in ms
        ensures y.matchDateTime <= m.matchDateTime
      {
        var k :| 0 <= k < |ms| && ms[k] == y;
        assert ms[0].matchDateTime >= ms[k].matchDateTime || k == 0;
      }
      PrependKeepsNewestFirst(m, ms);
    }
  }

  /** Insertion puts `m` first among the matches of its date and moves no
      other match past one of the same date. */
  lemma {:induction false} InsertByDateKeepsTies(m: Match, ms: seq<Match>, d: int)
    ensures WithDate(InsertByDate(m, ms), d)
            == (if m.matchDateTime == d then [m] else []) + WithDate(ms, d)
  {
    if |ms| == 0 {
    } else if ms[0].matchDateTime > m.matchDateTime {
      var r := InsertByDate(m, ms);
      assert r[1..] == InsertByDate(m, ms[1..]);
      InsertByDateKeepsTies(m, ms[1..], d);
    } else {
      assert ([m] + ms)[1..] == ms;
    }
  }

  /** `sorted()` by the match comparator, which is stable: a permutation
      in which the matches of one date keep their input order. */
  function SortNewestFirst(ms: seq<Match>): (r: seq<Match>)
    ensures multiset(r) == multiset(ms)
    ensures forall d :: WithDate(r, d) == WithDate(ms, d)
  {
    if |ms| == 0 then []
    else
      assert ms == [ms[0]] + ms[1..];
      var rest := SortNewestFirst(ms[1..]);
      assert forall d :: WithDate(InsertByDate(ms[0], rest), d) == WithDate(ms, d) by {
        forall d ensures WithDate(InsertByDate(ms[0], rest), d) == WithDate(ms, d) {
          InsertByDateKeepsTies(ms[0], rest, d);
        }
      }
      InsertByDate(ms[0], rest)
  }

  /** Sorting by the match comparator yields a newest-first list. */
  lemma {:induction false} SortNewestFirstOrders(ms: seq<Match>)
    ensures NewestFirst(SortNewestFirst(ms))
  {
    if |ms| > 0 {
      SortNewestFirstOrders(ms[1..]);
      InsertByDateKeepsOrder(ms[0], SortNewestFirst(ms[1..]));
    }
  }

  /** `findAllByTeamA` / `findAllByTeamB`, in table order. */
  function WithTeamA(ms: seq<Match>, team: int): (r: seq<Match>)
    ensures forall m :: m in r <==> m in ms && m.teamA == team
  {
    if |ms| == 0 then []
    else (if ms[0].teamA == team then [ms[0]] else []) + WithTeamA(ms[1..], team)
  }

  function WithTeamB(ms: seq<Match>, team: int): (r: seq<Match>)
    ensures forall m :: m in r <==> m in ms && m.teamB == team
  {
    if |ms| == 0 then []
    else (if ms[0].teamB == team then [ms[0]] else []) + WithTeamB(ms[1..], team)
  }

  /** `getMatches(teamId)`: every match the team plays as A or B, newest
      first; an unknown team is not found. */
  function GetMatches(teams: set<int>, ms: seq<Match>, team: int): (r: Result<seq<Match>>)
    ensures team !in teams <==> r.Err?
    ensures r.Err? ==> r.error == ResourceNotFound("team")
    ensures r.Ok? ==> NewestFirst(r.value)
    ensures r.Ok? ==> forall m :: m in r.value <==> m in ms && (m.teamA == team || m.teamB == team)
    ensures r.Ok? ==> multiset(r.value) == multiset(WithTeamA(ms, team)) + multiset(WithTeamB(ms, team))
    ensures r.Ok? ==> forall d :: WithDate(r.value, d) == WithDate(WithTeamA(ms, team) + WithTeamB(ms, team), d)
  {
    if team !in teams then Err(ResourceNotFound("team"))
    else
      var both := WithTeamA(ms, team) + WithTeamB(ms, team);
      var sorted := SortNewestFirst(both);
      SortNewestFirstOrders(both);
      assert forall m :: m in sorted <==> m in multiset(both);
      Ok(sorted)
  }

  /** A list whose matches all fall on date `d` is its own date-`d` part. */
  lemma {:induction false} WithDateOfOneDay(ms: seq<Match>, d: int)
    requires forall i :: 0 <= i < |ms| ==> ms[i].matchDateTime == d
    ensures WithDate(ms, d) == ms
  {
    if |ms| > 0 {
      WithDateOfOneDay(ms[1..], d);
      assert ms == [ms[0]] + ms[1..];
    }
  }

  /** Stability in effect: when all of a team's matches fall on one date,
      the listing is the side-A matches followed by the side-B matches,
      each in table order. */
  lemma SameDayMatchesKeepListingOrder(teams: set<int>, ms: seq<Match>, team: int, d: int)
    requires team in teams
    requires forall i :: 0 <= i < |ms| ==> ms[i].matchDateTime == d
    ensures GetMatches(teams, ms, team) == Ok(WithTeamA(ms, team) + WithTeamB(ms, team))
  {
    var both := WithTeamA(ms, team) + WithTeamB(ms, team);
    var r := GetMatches(teams, ms, team).value;
    forall i | 0 <= i < |both| ensures both[i].matchDateTime == d {
      assert both[i] in ms;
    }
    forall i | 0 <= i < |r| ensures r[i].matchDateTime == d {
      assert r[i] in ms;
    }
    WithDateOfOneDay(both, d);
    WithDateOfOneDay(r, d);
  }

  /** `getMatchById`. */
  function GetMatchById(ms: seq<Match>, id: int): (r: Result<Match>)
    ensures r.Ok? ==> r.value in ms && r.value.id == id
    ensures r.Err? <==> forall i :: 0 <= i < |ms| ==> ms[i].id != id
    ensures r.Err? ==> r.error == ResourceNotFound("match")
  {
    match FirstIndex(ms, (m: Match) => m.id == id)
    case None => Err(ResourceNotFound("match"))
    case Some(i) => Ok(ms[i])
  }

  /** `validateUserInTeams`: the caller needs a membership row, of any
      status, in at least one of the teams. */
  function ValidateUserInTeams(members: seq<Members.TeamMember>, user: int, teamA: int, teamB: int)
    : (r: Result<()>)
    ensures r.Ok? <==> exists i :: 0 <= i < |members| && members[i].user == user
                                   && (members[i].team == teamA || members[i].team == teamB)
    ensures r.Err? ==> r.error == Forbidden
  {
    match FirstIndex(members, (m: Members.TeamMember) => m.user == user && (m.team == teamA || m.team == teamB))
    case None => Err(Forbidden)
    case Some(_) => Ok(())
  }

  /** `createMatch`: both ids must name two distinct existing teams, the
      caller must belong to one of them, and the new match lists the
      lower team id as A. The shown `Team` declares no ordering; ordering
      by id is the model's reading of `Collections.sort(teams)`. */
  function CreateMatch(teams: set<int>, members: seq<Members.TeamMember>, ms: seq<Match>,
                       caller: int, teamAId: int, teamBId: int, date: int, newId: int)
    : (r: Result<(seq<Match>, Match)>)
    requires forall i :: 0 <= i < |ms| ==> ms[i].id != newId
    ensures r.Ok? <==> teamAId != teamBId && teamAId in teams && teamBId in teams
                       && ValidateUserInTeams(members, caller, teamAId, teamBId).Ok?
    ensures !(teamAId != teamBId && teamAId in teams && teamBId in teams) ==>
            r == Err(ResourceNotFound("team"))
    ensures teamAId != teamBId && teamAId in teams && teamBId in teams && r.Err? ==>
            r.error == Forbidden
    ensures r.Ok? ==> var m := r.value.1;
      && r.value.0 == ms + [m]
      && m.id == newId && m.createBy == caller && m.matchDateTime == date
      && {m.teamA, m.teamB} == {teamAId, teamBId} && m.teamA < m.teamB
  {
    // `findAllByIdIn` returns one row per existing id: two rows exactly
    // when the ids differ and both exist.
    if !(teamAId != teamBId && teamAId in teams && teamBId in teams) then
      Err(ResourceNotFound("team"))
    else
      var _ :- ValidateUserInTeams(members, caller, teamAId, teamBId);
      var lo := if teamAId < teamBId then teamAId else teamBId;
      var hi := if teamAId < teamBId then teamBId else teamAId;
      var m := Match(newId, lo, hi, date, caller);
      Ok((ms + [m], m))
  }

  /** `editMatch`: a member of either team may move the match date; nothing
      else of the match changes. */
  function EditMatch(members: seq<Members.TeamMember>, ms: seq<Match>, caller: int,
                     matchId: int, date: int): (r: Result<seq<Match>>)
    ensures GetMatchById(ms, matchId).Err? ==> r == Err(ResourceNotFound("match"))
    ensures r.Ok? ==> |r.value| == |ms|
    ensures r.Ok? ==> exists i :: (0 <= i < |ms| && ms[i].id == matchId
      && ValidateUserInTeams(members, caller, ms[i].teamA, ms[i].teamB).Ok?
      && r.value == ms[i := ms[i].(matchDateTime := date)])
    ensures GetMatchById(ms, matchId).Ok? && r.Err? ==> r.error == Forbidden
    ensures GetMatchById(ms, matchId).Ok? ==>
            (r.Ok? <==> ValidateUserInTeams(members, caller, GetMatchById(ms, matchId).value.teamA,
                                            GetMatchById(ms, matchId).value.teamB).Ok?)
  {
    match FirstIndex(ms, (m: Match) => m.id == matchId)
    case None => Err(ResourceNotFound("match"))
    case Some(i) =>
      var _ :- ValidateUserInTeams(members, caller, ms[i].teamA, ms[i].teamB);
      Ok(ms[i := ms[i].(matchDateTime := date)])
  }
}

=== FILE: mdc.dfy ===
/** The user id carried in the logging context: an optional string parsed
    as a non-negative `long`. */
module UserIdParse {
  import opened Common

  const LongMax: nat := 0x7FFF_FFFF_FFFF_FFFF

  predicate IsDigit(c: char) {
    '0' <= c <= '9'
  }

  /** `StringUtils.isNumeric` on ASCII text: non-empty and digits only. */
  predicate IsNumeric(s: string) {
    |s| > 0 && forall i :: 0 <= i < |s| ==> IsDigit(s[i])
  }

  function DigitValue(c: char): nat
    requires IsDigit(c)
  {
    (c as int - '0' as int) as nat
  }

  /** The decimal value of a digit string, most significant digit first. */
  function DigitsValue(s: string): nat
    requires forall i :: 0 <= i < |s| ==> IsDigit(s[i])
  {
    if |s| == 0 then 0
    else DigitsValue(s[..|s| - 1]) * 10 + DigitValue(s[|s| - 1])
  }

  /** `getUserIdFromMDC`: a missing entry fails authentication; a
      non-numeric one, or one beyond `Long.MAX_VALUE` (`Long.valueOf`'s
      `NumberFormatException`), is an illegal argument. */
  function GetUserIdFromMdc(entry: Option<string>): (r: Result<int>)
    ensures entry.None? <==> r == Err(AuthenticationFailed)
    ensures entry.Some? && !IsNumeric(entry.value) ==>
            r == Err(IllegalArgument(entry.value + " is not number"))
    ensures r.Ok? ==> entry.Some? && IsNumeric(entry.value)
                      && r.value == DigitsValue(entry.value) && 0 <= r.value <= LongMax
    ensures entry.Some? && IsNumeric(entry.value) ==>
            (r.Ok? <==> DigitsValue(entry.value) <= LongMax)
    ensures entry.Some? && IsNumeric(entry.value) && DigitsValue(entry.value) > LongMax ==>
            r == Err(IllegalArgument("For input string: \"" + entry.value + "\""))
  {
    match entry
    case None => Err(AuthenticationFailed)
    case Some(s) =>
      if !IsNumeric(s) then Err(IllegalArgument(s + " is not number"))
      else if DigitsValue(s) > LongMax then Err(IllegalArgument("For input string: \"" + s + "\""))
      else Ok(DigitsValue(s))
  }

  function DigitChar(d: nat): (c: char)
    requires d < 10
    ensures IsDigit(c) && DigitValue(c) == d
  {
    ('0' as int + d) as char
  }

  /** The decimal rendering of `n` (`Long.toString`), without leading
      zeros. */
  function Show(n: nat): (s: string)
    ensures forall i :: 0 <= i < |s| ==> IsDigit(s[i])
    ensures |s| > 0
  {
    if n < 10 then [DigitChar(n)] else Show(n / 10) + [DigitChar(n % 10)]
  }

  lemma {:induction false} ShowValue(n: nat)
    ensures DigitsValue(Show(n)) == n
  {
    if n >= 10 {
      ShowValue(n / 10);
      var s := Show(n);
      assert s[..|s| - 1] == Show(n / 10);
    }
  }

  /** Every id the context can hold parses back to itself. */
  lemma ParseShowRoundTrip(n: nat)
    requires n <= LongMax
    ensures GetUserIdFromMdc(Some(Show(n))) == Ok(n as int)
  {
    ShowValue(n);
  }

  /** Leading zeros do not change the value. */
  lemma {:induction false} LeadingZeroIgnored(s: string)
    requires forall i :: 0 <= i < |s| ==> IsDigit(s[i])
    ensures DigitsValue(['0'] + s) == DigitsValue(s)
  {
    if |s| > 0 {
      var init := s[..|s| - 1];
      LeadingZeroIgnored(init);
      assert (['0'] + s)[..|s|] == ['0'] + init;
    }
  }

  /** A sign, a blank or an empty entry is not numeric. */
  lemma NonDigitsRefused(s: string)
    ensures GetUserIdFromMdc(Some("-" + s)).Err? && GetUserIdFromMdc(Some(" " + s)).Err?
    ensures GetUserIdFromMdc(Some("")) == Err(IllegalArgument(" is not number"))
  {
    assert ("-" + s)[0] == '-';
    assert (" " + s)[0] == ' ';
    assert "" + " is not number" == " is not number";
  }
}

=== FILE: member_service.dfy ===
/** The team-member service: listing members by status, join requests,
    position changes, join approval, and the member detail aggregates. */
module MemberService {
  import opened Common
  import opened Members
  import Grouping
  import Quarters
  import AttackPoints
  import Rankings

  /** `findAllByTeamAndAcceptStatus`, in table order. */
  function WithTeamAndStatus(ms: seq<TeamMember>, team: int, status: AcceptStatus): (r: seq<TeamMember>)
    ensures forall m :: m in r <==> m in ms && m.team == team && m.acceptStatus == status
  {
    if |ms| == 0 then []
    else
      (if ms[0].team == team && ms[0].acceptStatus == status then [ms[0]] else [])
      + WithTeamAndStatus(ms[1..], team, status)
  }

  /** `getTeamMembers`: accepted members are visible to anyone; waiting or
      denied ones only to a caller who manages the team. */
  function GetTeamMembers(teams: set<int>, ms: seq<TeamMember>, caller: int, team: int,
                          status: AcceptStatus): (r: Result<seq<TeamMember>>)
    ensures team !in teams ==> r == Err(ResourceNotFound("team"))
    ensures team in teams && status == Accepted ==> r.Ok?
    ensures team in teams && status != Accepted ==>
            match Authorize(ms, team, caller, Forbidden)
            case Err(e) => r == Err(e)
            case Ok(_) => r.Ok?
    ensures r.Ok? ==> forall m :: m in r.value <==> m in ms && m.team == team && m.acceptStatus == status
  {
    if team !in teams then Err(ResourceNotFound("team"))
    else
      var _ :- if status == Accepted then Ok(()) else Authorize(ms, team, caller, Forbidden);
      Ok(WithTeamAndStatus(ms, team, status))
  }

  /** `createMember`: a join request. A user who already has a row in the
      team is refused, as a member if accepted and as a repeated request
      otherwise; else one waiting row with the defaults is saved. */
  function CreateMember(teams: set<int>, ms: seq<TeamMember>, user: int, team: int, newId: nat)
    : (r: Result<(seq<TeamMember>, TeamMember)>)
    requires forall i :: 0 <= i < |ms| ==> ms[i].key.id != Some(newId as int)
    ensures team !in teams ==> r == Err(ResourceNotFound("team"))
    ensures team in teams ==>
            match FindByTeamAndUser(ms, team, user)
            case Some(m) => r == Err(if m.acceptStatus == Accepted then AlreadyExistMember
                                     else AlreadyRequestedJoin)
            case None => r.Ok?
    ensures r.Ok? ==> var (ms', m) := r.value;
      && ms' == ms + [m]
      && m == NewMember(Persisted(newId), team, user)
      && m.acceptStatus == Waiting && m.permission == MemberPermission
  {
    if team !in teams then Err(ResourceNotFound("team"))
    else match FindByTeamAndUser(ms, team, user)
      case Some(m) => Err(if m.acceptStatus == Accepted then AlreadyExistMember else AlreadyRequestedJoin)
      case None =>
        var m := NewMember(Persisted(newId), team, user);
        Ok((ms + [m], m))
  }

  /** A join request keeps one row per (team, user) and one id per row. */
  lemma CreateMemberKeepsWellFormed(teams: set<int>, ms: seq<TeamMember>, user: int, team: int, newId: nat)
    requires WellFormed(ms)
    requires forall i :: 0 <= i < |ms| ==> ms[i].key.id != Some(newId as int)
    requires CreateMember(teams, ms, user, team, newId).Ok?
    ensures WellFormed(CreateMember(teams, ms, user, team, newId).value.0)
  {
    var ms' := CreateMember(teams, ms, user, team, newId).value.0;
    assert FindByTeamAndUser(ms, team, user).None?;
    forall i, j | 0 <= i < j < |ms'|
      ensures ms'[i].team != ms'[j].team || ms'[i].user != ms'[j].user
      ensures ms'[i].key.id != ms'[j].key.id
    {
      if j == |ms| {
        assert ms'[i] == ms[i];
      }
    }
  }

  /** The fields a position change writes. */
  datatype PositionChange = PositionChange(position: Option<Position>, role: Role,
                                           backNumber: Option<int>, permission: Permission)

  function ApplyChange(m: TeamMember, c: PositionChange): TeamMember {
    m.(position := c.position, role := c.role, backNumber := c.backNumber, permission := c.permission)
  }

  /** `changeMemberPosition`: a manager of `team` overwrites exactly
      position, role, back number and permission of the member with that
      id. The member is found by id alone, in whatever team. */
  function ChangeMemberPosition(ms: seq<TeamMember>, caller: int, team: int, memberId: int,
                                c: PositionChange): (r: Result<seq<TeamMember>>)
    ensures Authorize(ms, team, caller, Forbidden).Err? ==>
            r == Err(Authorize(ms, team, caller, Forbidden).error)
    ensures Authorize(ms, team, caller, Forbidden).Ok? && FindIndexById(ms, memberId).None? ==>
            r == Err(ResourceNotFound("member"))
    ensures Authorize(ms, team, caller, Forbidden).Ok? && FindIndexById(ms, memberId).Some? ==>
            r == Ok(ms[FindIndexById(ms, memberId).value
                       := ApplyChange(ms[FindIndexById(ms, memberId).value], c)])
    ensures r.Ok? ==> Authorize(ms, team, caller, Forbidden).Ok?
    ensures r.Ok? ==> exists i :: (0 <= i < |ms| && ms[i].key.id == Some(memberId)
      && r.value == ms[i := ApplyChange(ms[i], c)]
      && var m, m' := ms[i], r.value[i];
         && m'.key == m.key && m'.user == m.user && m'.team == m.team
         && m'.acceptStatus == m.acceptStatus
         && m'.position == c.position && m'.role == c.role
         && m'.backNumber == c.backNumber && m'.permission == c.permission)
  {
    var _ :- Authorize(ms, team, caller, Forbidden);
    match FindIndexById(ms, memberId)
    case None => Err(ResourceNotFound("member"))
    case Some(i) => Ok(ms[i := ApplyChange(ms[i], c)])
  }

  /** Changing a row's position fields keeps the table well formed. */
  lemma ChangeMemberPositionKeepsWellFormed(ms: seq<TeamMember>, caller: int, team: int,
                                            memberId: int, c: PositionChange)
    requires WellFormed(ms)
    requires ChangeMemberPosition(ms, caller, team, memberId, c).Ok?
    ensures WellFormed(ChangeMemberPosition(ms, caller, team, memberId, c).value)
  {
    var ms' := ChangeMemberPosition(ms, caller, team, memberId, c).value;
    var i := FindIndexById(ms, memberId).value;
    assert ms' == ms[i := ApplyChange(ms[i], c)];
    SameRowsKeepWellFormed(ms, ms');
  }

  /** `approveTeamJoin`: a manager moves a waiting request to accepted or
      denied; a member in any other status cannot move. */
  function ApproveTeamJoin(ms: seq<TeamMember>, caller: int, team: int, memberId: int, accept: bool)
    : (r: Result<seq<TeamMember>>)
    ensures Authorize(ms, team, caller, Forbidden).Err? ==>
            r == Err(Authorize(ms, team, caller, Forbidden).error)
    ensures Authorize(ms, team, caller, Forbidden).Ok? ==>
            match FindIndexById(ms, memberId)
            case None => r == Err(ResourceNotFound("request member"))
            case Some(i) =>
              if ms[i].acceptStatus != Waiting
              then r == Err(IllegalArgument("invalid request for member accept status"))
              else r == Ok(ms[i := ms[i].(acceptStatus := if accept then Accepted else Denied)])
  {
    var _ :- Authorize(ms, team, caller, Forbidden);
    match FindIndexById(ms, memberId)
    case None => Err(ResourceNotFound("request member"))
    case Some(i) =>
      if ms[i].acceptStatus != Waiting then
        Err(IllegalArgument("invalid request for member accept status"))
      else
        Ok(ms[i := ms[i].(acceptStatus := if accept then Accepted else Denied)])
  }

  /** A request that is no longer waiting cannot be decided. */
  lemma DecidedRequestRefused(ms: seq<TeamMember>, caller: int, team: int, memberId: int, accept: bool)
    requires Authorize(ms, team, caller, Forbidden).Ok?
    requires FindIndexById(ms, memberId).Some?
    requires ms[FindIndexById(ms, memberId).value].acceptStatus != Waiting
    ensures ApproveTeamJoin(ms, caller, team, memberId, accept)
            == Err(IllegalArgument("invalid request for member accept status"))
  {
  }

  /** A successful approval was authorized and rewrote a waiting row. */
  lemma ApprovedRequestWasWaiting(ms: seq<TeamMember>, caller: int, team: int, memberId: int, accept: bool)
    requires ApproveTeamJoin(ms, caller, team, memberId, accept).Ok?
    ensures Authorize(ms, team, caller, Forbidden).Ok?
    ensures FindIndexById(ms, memberId).Some?
    ensures var i := FindIndexById(ms, memberId).value;
            ms[i].acceptStatus == Waiting
            && ApproveTeamJoin(ms, caller, team, memberId, accept).value
               == ms[i := ms[i].(acceptStatus := if accept then Accepted else Denied)]
  {
  }

  /** Accepted and denied are final: once a request is decided, deciding
      it again is refused, whichever way. */
  lemma ApprovalIsFinal(ms: seq<TeamMember>, caller: int, team: int, memberId: int,
                        accept: bool, again: bool)
    requires ApproveTeamJoin(ms, caller, team, memberId, accept).Ok?
    ensures ApproveTeamJoin(ApproveTeamJoin(ms, caller, team, memberId, accept).value,
                            caller, team, memberId, again)
            == Err(IllegalArgument("invalid request for member accept status"))
  {
    ApprovedRequestWasWaiting(ms, caller, team, memberId, accept);
    var ms' := ApproveTeamJoin(ms, caller, team, memberId, accept).value;
    var i := FindIndexById(ms, memberId).value;
    var decided := ms[i].(acceptStatus := if accept then Accepted else Denied);
    assert ms' == ms[i := decided];
    assert SameRows(ms, ms');
    SameRowsSameIndex(ms, ms', memberId);
    SameRowsSameAuthorize(ms, ms', team, caller, Forbidden);
    DecidedRequestRefused(ms', caller, team, memberId, again);
  }

  /** An approval changes the status of one row and keeps the table well
      formed. */
  lemma ApproveKeepsWellFormed(ms: seq<TeamMember>, caller: int, team: int, memberId: int, accept: bool)
    requires WellFormed(ms)
    requires ApproveTeamJoin(ms, caller, team, memberId, accept).Ok?
    ensures WellFormed(ApproveTeamJoin(ms, caller, team, memberId, accept).value)
  {
    var ms' := ApproveTeamJoin(ms, caller, team, memberId, accept).value;
    var i := FindIndexById(ms, memberId).value;
    assert ms' == ms[i := ms[i].(acceptStatus := if accept then Accepted else Denied)];
    SameRowsKeepWellFormed(ms, ms');
  }

  // ---------------------------------------------------------------------
  // Member detail

  /** A saved participation: who came in, for which team, in which quarter,
      at which position. */
  datatype ParticipationRow = ParticipationRow(
    key: EntityKey, inUser: Option<int>, team: int, quarter: Quarters.Quarter, position: Position)

  /** `findAllByTeamAndInUser`, in table order. */
  function ParticipationsOf(ps: seq<ParticipationRow>, team: int, user: int): (r: seq<ParticipationRow>)
    ensures forall p :: p in r <==> p in ps && p.team == team && p.inUser == Some(user)
  {
    if |ps| == 0 then []
    else
      (if ps[0].team == team && ps[0].inUser == Some(user) then [ps[0]] else [])
      + ParticipationsOf(ps[1..], team, user)
  }

  function PositionsOf(ps: seq<ParticipationRow>): (r: seq<Position>)
    ensures |r| == |ps| && forall i :: 0 <= i < |ps| ==> r[i] == ps[i].position
  {
    seq(|ps|, i requires 0 <= i < |ps| => ps[i].position)
  }

  function QuartersOf(ps: seq<ParticipationRow>): (r: seq<Quarters.Quarter>)
    ensures |r| == |ps| && forall i :: 0 <= i < |ps| ==> r[i] == ps[i].quarter
  {
    seq(|ps|, i requires 0 <= i < |ps| => ps[i].quarter)
  }

  /** `getMemberMostPosition`: a position with the largest count (ties go
      to whichever the map yields first); `Collections.max` of nothing
      throws. */
  function MostPosition(positions: seq<Position>): (r: Result<Position>)
    ensures |positions| == 0 <==> r == Err(NoSuchElement)
    ensures r.Ok? ==> r.value in positions
    ensures r.Ok? ==> forall p :: p in positions ==> Grouping.Occ(positions, p) <= Grouping.Occ(positions, r.value)
  {
    if |positions| == 0 then Err(NoSuchElement)
    else
      Grouping.RankIsRanking(positions);
      Grouping.RankingHeadIsMostFrequent(positions, Grouping.Rank(positions));
      Ok(Grouping.Rank(positions)[0].key)
  }

  /** The quarters among `qs` the team won. */
  function WonQuarters(qs: seq<Quarters.Quarter>, team: int): (r: seq<Quarters.Quarter>)
    ensures |r| <= |qs|
    ensures forall q :: q in r <==> q in qs && Quarters.IsTeamWin(q, team)
  {
    if |qs| == 0 then []
    else (if Quarters.IsTeamWin(qs[0], team) then [qs[0]] else []) + WonQuarters(qs[1..], team)
  }

  /** The quarters entered, counted as a set (`Collectors.toSet()`, equal
      quarters counted once), and the number of those the team won. */
  function QuarterTally(qs: seq<Quarters.Quarter>, team: int): (r: (nat, nat))
    ensures r.0 == |set q | q in qs|
    ensures r.1 == |set q | q in qs && Quarters.IsTeamWin(q, team)|
    ensures r.1 <= r.0
  {
    var won := WonQuarters(qs, team);
    Grouping.DistinctCard(qs);
    Grouping.DistinctCard(won);
    var total := set q | q in qs;
    var wins := set q | q in won;
    assert wins == set q | q in qs && Quarters.IsTeamWin(q, team);
    assert total == wins + (total - wins) && wins * (total - wins) == {};
    (|Grouping.Distinct(qs)|, |Grouping.Distinct(won)|)
  }

  datatype MemberDetail = MemberDetail(
    userId: int,
    teamId: int,
    totalQuarters: nat,
    wins: nat,
    goals: nat,
    assists: nat,
    mostPosition: Position,
    role: Role,
    permission: Permission,
    backNumber: Option<int>)

  /** `findByIdAndTeamAndAcceptStatus(id, team, ACCEPTED)`. */
  function FindAcceptedMember(ms: seq<TeamMember>, team: int, memberId: int): (r: Option<TeamMember>)
    ensures r.Some? ==> r.value in ms && r.value.key.id == Some(memberId) && r.value.team == team
                        && r.value.acceptStatus == Accepted
    ensures r.None? <==> forall i :: 0 <= i < |ms| ==>
      ms[i].key.id != Some(memberId) || ms[i].team != team || ms[i].acceptStatus != Accepted
  {
    match FirstIndex(ms, (m: TeamMember) => m.key.id == Some(memberId) && m.team == team
                                            && m.acceptStatus == Accepted)
    case None => None
    case Some(i) => Some(ms[i])
  }

  /** `getTeamMemberInfo`: for an accepted member of the team, the number
      of distinct quarters they came in for, how many of those the team
      won, their goal and assist rows (own goals excluded), and their most
      played position. */
  function GetTeamMemberInfo(ms: seq<TeamMember>, ps: seq<ParticipationRow>,
                             events: seq<AttackPoints.AttackPoint>, team: int, memberId: int)
    : (r: Result<MemberDetail>)
    ensures FindAcceptedMember(ms, team, memberId).None? <==> r == Err(ResourceNotFound("team member"))
    ensures FindAcceptedMember(ms, team, memberId).Some? ==>
            var user := FindAcceptedMember(ms, team, memberId).value.user;
            (r.Err? <==> |ParticipationsOf(ps, team, user)| == 0)
    ensures r.Err? ==> r.error == ResourceNotFound("team member") || r.error == NoSuchElement
    ensures r.Ok? ==> var m := FindAcceptedMember(ms, team, memberId).value;
      var mine := ParticipationsOf(ps, team, m.user);
      var d := r.value;
      && d.userId == m.user && d.teamId == team
      && d.role == m.role && d.permission == m.permission && d.backNumber == m.backNumber
      && d.totalQuarters == |set q | q in QuartersOf(mine)|
      && d.wins == |set q | q in QuartersOf(mine) && Quarters.IsTeamWin(q, team)|
      && d.wins <= d.totalQuarters
      && d.goals == |Rankings.RowsOf(events, team, AttackPoints.Goal, m.user)|
      && d.assists == |Rankings.RowsOf(events, team, AttackPoints.Assist, m.user)|
      && d.mostPosition in PositionsOf(mine)
      && forall p :: p in PositionsOf(mine) ==>
           Grouping.Occ(PositionsOf(mine), p) <= Grouping.Occ(PositionsOf(mine), d.mostPosition)
  {
    match FindAcceptedMember(ms, team, memberId)
    case None => Err(ResourceNotFound("team member"))
    case Some(m) =>
      var mine := ParticipationsOf(ps, team, m.user);
      var mostPosition :- MostPosition(PositionsOf(mine));
      var (total, wins) := QuarterTally(QuartersOf(mine), team);
      var goals := Grouping.Occ(Rankings.TypeKeys(events, team, AttackPoints.Goal), m.user);
      var assists := Grouping.Occ(Rankings.TypeKeys(events, team, AttackPoints.Assist), m.user);
      Rankings.TypeCountIsRowCount(events, team, AttackPoints.Goal, m.user);
      Rankings.TypeCountIsRowCount(events, team, AttackPoints.Assist, m.user);
      Ok(MemberDetail(m.user, team, total, wins, goals, assists,
                      mostPosition, m.role, m.permission, m.backNumber))
  }
}

=== FILE: membership.dfy ===
/** Team membership rows and the one authorization rule every service
    applies: find the caller's row for the team, then check its permission. */
module Members {
  import opened Common

  datatype AcceptStatus = Accepted | Waiting | Denied

  datatype Permission = Admin | Manager | MemberPermission

  /** `Role.NONE` is the builder default although the enum shown does not
      declare it; it is kept as a value of its own. */
  datatype Role = Captain | Keeper | Boss | MemberRole | NoRole

  datatype Position =
    | GK | SW | CB | RB | RWB | LWB | LB | AM | LM | CM | RM | DM | CF | SS | LWF | RWF

  datatype TeamMember = TeamMember(
    key: EntityKey,
    user: int,
    team: int,
    position: Option<Position>,
    backNumber: Option<int>,
    role: Role,
    permission: Permission,
    acceptStatus: AcceptStatus)

  /** A membership row as the builder makes it when only team and user are
      given: role NONE, permission MEMBER, status WAITING. */
  function NewMember(key: EntityKey, team: int, user: int): (m: TeamMember)
    ensures m.key == key && m.team == team && m.user == user
    ensures m.permission == MemberPermission && m.acceptStatus == Waiting && m.role == NoRole
    ensures m.position.None? && m.backNumber.None?
  {
    TeamMember(key, user, team, None, None, NoRole, MemberPermission, Waiting)
  }

  /** ADMIN and MANAGER may manage a team; MEMBER may not. */
  predicate HasManagePermission(m: TeamMember) {
    m.permission == Admin || m.permission == Manager
  }

  /** The `team_user_unique` constraint: one row per (team, user). */
  ghost predicate UniqueMemberships(ms: seq<TeamMember>) {
    forall i, j :: 0 <= i < j < |ms| ==> ms[i].team != ms[j].team || ms[i].user != ms[j].user
  }

  /** Every row is saved, under an id of its own. */
  ghost predicate DistinctIds(ms: seq<TeamMember>) {
    && (forall i :: 0 <= i < |ms| ==> ms[i].key.id.Some?)
    && (forall i, j :: 0 <= i < j < |ms| ==> ms[i].key.id != ms[j].key.id)
  }

  ghost predicate WellFormed(ms: seq<TeamMember>) {
    UniqueMemberships(ms) && DistinctIds(ms)
  }

  /** `findByTeamAndUser`: the row of `user` in `team`, of any status. */
  function FindByTeamAndUser(ms: seq<TeamMember>, team: int, user: int): (r: Option<TeamMember>)
    ensures r.Some? ==> r.value in ms && r.value.team == team && r.value.user == user
    ensures r.None? <==> forall i :: 0 <= i < |ms| ==> ms[i].team != team || ms[i].user != user
  {
    match FirstIndex(ms, (m: TeamMember) => m.team == team && m.user == user)
    case None => None
    case Some(i) => Some(ms[i])
  }

  /** Index of the row saved under `id` (`findById`). */
  function FindIndexById(ms: seq<TeamMember>, id: int): (r: Option<nat>)
    ensures r.Some? ==> r.value < |ms| && ms[r.value].key.id == Some(id)
    ensures r.None? <==> forall i :: 0 <= i < |ms| ==> ms[i].key.id != Some(id)
  {
    FirstIndex(ms, (m: TeamMember) => m.key.id == Some(id))
  }

  /** Two tables whose rows agree, position by position, on id, team and
      user: an update that touches only the other columns. */
  ghost predicate SameRows(ms: seq<TeamMember>, ms': seq<TeamMember>) {
    && |ms'| == |ms|
    && forall j :: 0 <= j < |ms| ==>
         ms'[j].key == ms[j].key && ms'[j].team == ms[j].team && ms'[j].user == ms[j].user
  }

  /** Such an update keeps the table well formed. */
  lemma SameRowsKeepWellFormed(ms: seq<TeamMember>, ms': seq<TeamMember>)
    requires WellFormed(ms) && SameRows(ms, ms')
    ensures WellFormed(ms')
  {
    forall i, j | 0 <= i < j < |ms'|
      ensures ms'[i].team != ms'[j].team || ms'[i].user != ms'[j].user
      ensures ms'[i].key.id != ms'[j].key.id
    {
      assert ms[i].team != ms[j].team || ms[i].user != ms[j].user;
    }
  }

  /** Such an update leaves every lookup by id where it was. */
  lemma SameRowsSameIndex(ms: seq<TeamMember>, ms': seq<TeamMember>, id: int)
    requires SameRows(ms, ms')
    ensures FindIndexById(ms', id) == FindIndexById(ms, id)
  {
    var hit := (m: TeamMember) => m.key.id == Some(id);
    assert forall j :: 0 <= j < |ms| ==> (hit(ms'[j]) <==> hit(ms[j]));
  }

  /** An update that keeps every row's id, team, user and permission
      leaves the authorization decision as it was. */
  lemma SameRowsSameAuthorize(ms: seq<TeamMember>, ms': seq<TeamMember>, team: int, caller: int,
                              missing: Error)
    requires SameRows(ms, ms')
    requires forall j :: 0 <= j < |ms| ==> ms'[j].permission == ms[j].permission
    ensures Authorize(ms', team, caller, missing) == Authorize(ms, team, caller, missing)
  {
    var hit := (m: TeamMember) => m.team == team && m.user == caller;
    assert forall j :: 0 <= j < |ms| ==> (hit(ms'[j]) <==> hit(ms[j]));
    match FirstIndex(ms, hit)
    case None =>
    case Some(i) =>
      assert FirstIndex(ms', hit) == Some(i);
  }

  /** The shared authorization rule: no row for the caller gives `missing`
      (FORBIDDEN in most services, a not-found error in the team service),
      a row without manage permission gives NO_PERMISSION_ON_TEAM. */
  function Authorize(ms: seq<TeamMember>, team: int, caller: int, missing: Error): (r: Result<()>)
    ensures r.Ok? ==> exists i :: 0 <= i < |ms| && ms[i].team == team && ms[i].user == caller
                                  && HasManagePermission(ms[i])
    ensures UniqueMemberships(ms) ==>
            (r.Ok? <==> exists i :: 0 <= i < |ms| && ms[i].team == team && ms[i].user == caller
                                    && HasManagePermission(ms[i]))
    ensures r.Err? && r.error != missing ==> r.error == NoPermissionOnTeam
    ensures (forall i :: 0 <= i < |ms| ==> ms[i].team != team || ms[i].user != caller)
            ==> r == Err(missing)
    ensures r == Err(NoPermissionOnTeam) && missing != NoPermissionOnTeam ==>
            exists i :: 0 <= i < |ms| && ms[i].team == team && ms[i].user == caller
  {
    match FindByTeamAndUser(ms, team, caller)
    case None => Err(missing)
    case Some(m) => if HasManagePermission(m) then Ok(()) else Err(NoPermissionOnTeam)
  }
}

=== FILE: participation.dfy ===
/** The substitution list of a quarter-participation request and its
    validation. Validation only reads the list. */
module Participations {
  import opened Common

  /** `eventTime` is a time of day in seconds since midnight; null is
      `None`. */
  datatype Participation = Participation(
    inUserId: Option<int>,
    inUserName: Option<string>,
    outUserId: Option<int>,
    outUserName: Option<string>,
    eventTime: Option<nat>)

  /** `Time.valueOf("00:00:00")`: the start of the quarter. */
  const Start: nat := 0

  const TimeMessage: string := "time should be the start if out user is null"
  const NameMessage: string := "out user name should not be empty if out user id is not null"

  /** The two rules an entry must satisfy: an entry with no player going
      out is a starter and must be at the start; an entry with a player
      going out must name that player. */
  predicate Valid(p: Participation) {
    && (p.outUserId.None? ==> p.eventTime == Some(Start))
    && (p.outUserId.Some? ==> p.outUserName.Some? && |p.outUserName.value| > 0)
  }

  /** One entry, the time rule first: `Objects.equals` with a null time is
      false, and `StringUtils.isEmpty` holds of null and "". */
  function CheckEntry(p: Participation): (r: Result<()>)
    ensures r.Ok? <==> Valid(p)
    ensures r == Err(InvalidParam(TimeMessage)) <==> p.outUserId.None? && p.eventTime != Some(Start)
    ensures r == Err(InvalidParam(NameMessage)) <==>
            p.outUserId.Some? && (p.outUserName.None? || p.outUserName == Some(""))
  {
    if p.outUserId.None? && p.eventTime != Some(Start) then Err(InvalidParam(TimeMessage))
    else if p.outUserId.Some? && (p.outUserName.None? || |p.outUserName.value| == 0) then
      Err(InvalidParam(NameMessage))
    else Ok(())
  }

  /** `validate`: the entries in list order; the first invalid one throws
      its rule's error. */
  function Validate(ps: seq<Participation>): (r: Result<()>)
    ensures r.Ok? <==> forall i :: 0 <= i < |ps| ==> Valid(ps[i])
    ensures r.Err? ==> exists i :: 0 <= i < |ps| && !Valid(ps[i]) && r == CheckEntry(ps[i])
                                   && forall j :: 0 <= j < i ==> Valid(ps[j])
  {
    if |ps| == 0 then Ok(())
    else
      var _ :- CheckEntry(ps[0]);
      var rest := Validate(ps[1..]);
      if rest.Err? then
        var i :| 0 <= i < |ps[1..]| && !Valid(ps[1..][i]) && rest == CheckEntry(ps[1..][i])
                 && forall j :: 0 <= j < i ==> Valid(ps[1..][j]);
        assert ps[i + 1] == ps[1..][i];
        assert forall j :: 1 <= j < i + 1 ==> ps[j] == ps[1..][j - 1];
        rest
      else rest
  }

  /** Validating a concatenation: the first part's error wins, otherwise
      the second part decides. */
  lemma {:induction false} ValidateConcat(a: seq<Participation>, b: seq<Participation>)
    ensures Validate(a + b) == if Validate(a).Err? then Validate(a) else Validate(b)
  {
    if |a| == 0 {
      assert a + b == b;
    } else {
      assert (a + b)[1..] == a[1..] + b;
      ValidateConcat(a[1..], b);
    }
  }
}

=== FILE: quarter.dfy ===
/** The `Quarter` entity: one scoring segment of a match, with its two
    scores, the A/B formation document and its ordinal. */
module Quarters {
  import opened Common

  /** One side of the formation document: the team it belongs to and the
      rest of the JSON object (formation name, member placement), which the
      model carries as an opaque text. */
  datatype TeamFormation = TeamFormation(teamId: int, body: string)

  datatype Formation = Formation(teamA: TeamFormation, teamB: TeamFormation)

  /** `new Formation(teamA, teamB)`: both sides name their team and carry
      the default (empty) body. */
  function NewFormation(teamA: int, teamB: int): (f: Formation)
    ensures f.teamA.teamId == teamA && f.teamB.teamId == teamB
  {
    Formation(TeamFormation(teamA, ""), TeamFormation(teamB, ""))
  }

  datatype Quarter = Quarter(
    key: EntityKey,
    matchId: int,
    teamA: int,
    teamB: int,
    teamAScore: int,
    teamBScore: int,
    formation: Formation,
    number: int)

  /** `isTeamWin(team)`: the team is side A and A outscored B, or it is
      side B and B outscored A. */
  predicate IsTeamWin(q: Quarter, team: int) {
    if q.teamA == team && q.teamAScore > q.teamBScore then true
    else if q.teamB == team && q.teamBScore > q.teamAScore then true
    else false
  }

  /** Characterisation of `isTeamWin`, and its consequences: a draw has no
      winner, an outsider never wins, and two distinct sides never both win. */
  lemma IsTeamWinSpec(q: Quarter, team: int)
    ensures IsTeamWin(q, team) <==>
            (team == q.teamA && q.teamAScore > q.teamBScore)
            || (team == q.teamB && q.teamBScore > q.teamAScore)
    ensures q.teamAScore == q.teamBScore ==> !IsTeamWin(q, team)
    ensures team != q.teamA && team != q.teamB ==> !IsTeamWin(q, team)
    ensures q.teamA != q.teamB ==> !(IsTeamWin(q, q.teamA) && IsTeamWin(q, q.teamB))
  {
  }

  /** `Integer.compare`: -1, 0 or 1 by the order of the two values. */
  function CompareInt(x: int, y: int): (c: int)
    ensures c == -1 || c == 0 || c == 1
    ensures c < 0 <==> x < y
    ensures c == 0 <==> x == y
    ensures c > 0 <==> x > y
  {
    if x < y then -1 else if x == y then 0 else 1
  }

  /** `compareTo`: quarters order by their ordinal. */
  function CompareQuarters(a: Quarter, b: Quarter): (c: int)
    ensures c < 0 <==> a.number < b.number
    ensures c == 0 <==> a.number == b.number
    ensures c > 0 <==> a.number > b.number
  {
    CompareInt(a.number, b.number)
  }

  /** The quarter ordering is antisymmetric in sign. */
  lemma CompareQuartersAntisymmetric(a: Quarter, b: Quarter)
    ensures CompareQuarters(a, b) == -CompareQuarters(b, a)
  {
  }

  /** `Objects.hashCode(id)`, the hash `Quarter` uses: the id's own hash, or
      0 for a null id. */
  function QuarterHash(q: Quarter): (h: int)
    ensures q.key.id.None? ==> h == 0
    ensures -0x8000_0000 <= h < 0x8000_0000
  {
    match q.key.id
    case None => 0
    case Some(v) => LongHashCode(v)
  }

  /** `hashCode` agrees with the id-based `equals`: quarters that `equals`
      relates hash alike. One object has one id, which is what the second
      requires says. */
  lemma EqualQuartersHashAlike(a: Quarter, b: Quarter)
    requires SameEntity(a.key, b.key)
    requires a.key.ref == b.key.ref ==> a.key.id == b.key.id
    ensures QuarterHash(a) == QuarterHash(b)
  {
  }

  /** Index of the quarter saved under `id` (`findById`). */
  function FindIndexById(qs: seq<Quarter>, id: int): (r: Option<nat>)
    ensures r.Some? ==> r.value < |qs| && qs[r.value].key.id == Some(id)
    ensures r.None? <==> forall i :: 0 <= i < |qs| ==> qs[i].key.id != Some(id)
  {
    FirstIndex(qs, (q: Quarter) => q.key.id == Some(id))
  }
}

=== FILE: quarter_service.dfy ===
/** The quarter service: creating a quarter together with its ledger
    update, looking quarters up per match, and routing a formation edit to
    side A or side B of the quarter. */
module QuarterService {
  import opened Common
  import opened TeamRecords
  import opened Quarters
  import Ledger
  import Members
  import Matches

  /** The stores the quarter service touches. */
  datatype State = State(records: map<int, TeamRecord>, quarters: seq<Quarter>)

  /** `createQuarterOfMatch`: the ledger is updated with the match's two
      teams and the quarter's score difference; if that fails nothing is
      saved. The quarter takes its sides from the match (the shown builder
      call leaves them unset, though the entity declares them non-null). */
  function CreateQuarterOfMatch(teams: set<int>, s: State, m: Matches.Match,
                                number: int, teamAScore: int, teamBScore: int, newId: nat)
    : (r: Result<(State, Quarter)>)
    ensures r.Err? <==> m.teamA !in teams || m.teamB !in teams
    ensures r.Err? ==> r.error == ResourceNotFound("team")
    ensures r.Ok? ==> var (s', q) := r.value;
      && s'.quarters == s.quarters + [q]
      && q.key.id == Some(newId as int)
      && q.number == number && q.matchId == m.id
      && q.teamAScore == teamAScore && q.teamBScore == teamBScore
      && q.teamA == m.teamA && q.teamB == m.teamB
      && q.formation.teamA.teamId == m.teamA && q.formation.teamB.teamId == m.teamB
      && s'.records == Ledger.UpdateTeamRecord(teams, s.records, m.teamA, m.teamB,
                                               teamAScore - teamBScore).value
  {
    var formation := NewFormation(m.teamA, m.teamB);
    var q := Quarter(Persisted(newId), m.id, m.teamA, m.teamB, teamAScore, teamBScore,
                     formation, number);
    var records :- Ledger.UpdateTeamRecord(teams, s.records, m.teamA, m.teamB,
                                           teamAScore - teamBScore);
    Ok((State(records, s.quarters + [q]), q))
  }

  /** Number of pairing slots (side A, side B) `team` fills among `qs`. */
  function Attributed(qs: seq<Quarter>, team: int): nat {
    if |qs| == 0 then 0
    else
      var q := qs[|qs| - 1];
      Attributed(qs[..|qs| - 1], team)
      + (if q.teamA == team then 1 else 0) + (if q.teamB == team then 1 else 0)
  }

  /** The ledger invariant: every team's win+draw+lose equals the number of
      quarter slots it fills. */
  ghost predicate Balanced(s: State) {
    forall t :: t in s.records ==> Total(s.records[t]) == Attributed(s.quarters, t)
  }

  /** A fresh store, with zero rows for its teams and no quarters, is
      balanced. */
  lemma FreshStoreBalanced(records: map<int, TeamRecord>)
    requires forall t :: t in records ==> Total(records[t]) == 0
    ensures Balanced(State(records, []))
  {
  }

  /** Creating a quarter keeps the ledger balanced, provided both teams of
      the match own a record row (team creation always makes one). */
  lemma CreateQuarterKeepsBalance(teams: set<int>, s: State, m: Matches.Match,
                                  number: int, teamAScore: int, teamBScore: int, newId: nat)
    requires Balanced(s)
    requires m.teamA in s.records && m.teamB in s.records
    requires CreateQuarterOfMatch(teams, s, m, number, teamAScore, teamBScore, newId).Ok?
    ensures Balanced(CreateQuarterOfMatch(teams, s, m, number, teamAScore, teamBScore, newId).value.0)
  {
    var (s', q) := CreateQuarterOfMatch(teams, s, m, number, teamAScore, teamBScore, newId).value;
    forall t | t in s'.records
      ensures Total(s'.records[t]) == Attributed(s'.quarters, t)
    {
      Ledger.UpdateTeamRecordTotals(teams, s.records, m.teamA, m.teamB, teamAScore - teamBScore, t);
      assert s'.quarters[..|s'.quarters| - 1] == s.quarters;
    }
  }

  /** `getQuartersOfMatch`: the quarters of the match, in table order. */
  function GetQuartersOfMatch(qs: seq<Quarter>, matchId: int): (r: seq<Quarter>)
    ensures forall q :: q in r <==> q in qs && q.matchId == matchId
    ensures |r| <= |qs|
  {
    if |qs| == 0 then []
    else (if qs[0].matchId == matchId then [qs[0]] else []) + GetQuartersOfMatch(qs[1..], matchId)
  }

  /** `getQuarterInfoOfMatch`: the quarter with that id, if it belongs to
      the match; otherwise the quarter is not found. */
  function GetQuarterInfoOfMatch(qs: seq<Quarter>, matchId: int, quarterId: int): (r: Result<Quarter>)
    ensures r.Ok? ==> r.value in qs && r.value.key.id == Some(quarterId) && r.value.matchId == matchId
    ensures r.Err? <==> forall i :: 0 <= i < |qs| ==> qs[i].key.id != Some(quarterId) || qs[i].matchId != matchId
    ensures r.Err? ==> r.error == ResourceNotFound("quarter")
  {
    match FirstIndex(qs, (q: Quarter) => q.key.id == Some(quarterId) && q.matchId == matchId)
    case None => Err(ResourceNotFound("quarter"))
    case Some(i) => Ok(qs[i])
  }

  /** Index form of the same lookup, used to write the quarter back. */
  function QuarterIndex(qs: seq<Quarter>, matchId: int, quarterId: int): (r: Option<nat>)
    ensures r.Some? ==> r.value < |qs| && qs[r.value].key.id == Some(quarterId)
                        && qs[r.value].matchId == matchId
    ensures r.None? <==> GetQuarterInfoOfMatch(qs, matchId, quarterId).Err?
  {
    FirstIndex(qs, (q: Quarter) => q.key.id == Some(quarterId) && q.matchId == matchId)
  }

  /** `==` on two boxed `Long`s compares references. Values that Jackson
      boxes separately share an object only inside the `Long.valueOf`
      cache, -128 to 127. */
  predicate BoxedLongIdentical(a: int, b: int) {
    a == b && -128 <= a <= 127
  }

  /** The steps common to both versions of `updateQuarterFormation` up to
      the side dispatch: the quarter must belong to the match, and the
      caller must manage the team named in the request. */
  function FormationEditTarget(members: seq<Members.TeamMember>, qs: seq<Quarter>, caller: int,
                               matchId: int, quarterId: int, f: TeamFormation): (r: Result<nat>)
    ensures r.Ok? ==> r.value < |qs| && qs[r.value].key.id == Some(quarterId)
                      && qs[r.value].matchId == matchId
    ensures GetQuarterInfoOfMatch(qs, matchId, quarterId).Err? ==> r == Err(ResourceNotFound("quarter"))
    ensures GetQuarterInfoOfMatch(qs, matchId, quarterId).Ok? ==>
            (r.Ok? <==> Members.Authorize(members, f.teamId, caller, Forbidden).Ok?)
    ensures GetQuarterInfoOfMatch(qs, matchId, quarterId).Ok? && r.Err? ==>
            r.error == Forbidden || r.error == NoPermissionOnTeam
    ensures GetQuarterInfoOfMatch(qs, matchId, quarterId).Ok?
            && Members.Authorize(members, f.teamId, caller, Forbidden).Err? ==>
            r == Err(Members.Authorize(members, f.teamId, caller, Forbidden).error)
  {
    match QuarterIndex(qs, matchId, quarterId)
    case None => Err(ResourceNotFound("quarter"))
    case Some(i) =>
      var _ :- Members.Authorize(members, f.teamId, caller, Forbidden);
      Ok(i)
  }

  /** `updateQuarterFormation` as written: the side is chosen by `==` on
      boxed ids, so a team id outside -128..127 never matches a side. */
  function UpdateQuarterFormationAsWritten(members: seq<Members.TeamMember>, qs: seq<Quarter>,
                                           caller: int, matchId: int, quarterId: int,
                                           f: TeamFormation): (r: Result<seq<Quarter>>)
    ensures r.Ok? ==> |r.value| == |qs|
    ensures !(-128 <= f.teamId <= 127) && FormationEditTarget(members, qs, caller, matchId, quarterId, f).Ok?
            ==> r == Err(IllegalArgument("invalid team id"))
    ensures -128 <= f.teamId <= 127 ==>
            r == UpdateQuarterFormation(members, qs, caller, matchId, quarterId, f)
  {
    var i :- FormationEditTarget(members, qs, caller, matchId, quarterId, f);
    var q := qs[i];
    if BoxedLongIdentical(q.formation.teamA.teamId, f.teamId) then
      Ok(qs[i := q.(formation := q.formation.(teamA := f))])
    else if BoxedLongIdentical(q.formation.teamB.teamId, f.teamId) then
      Ok(qs[i := q.(formation := q.formation.(teamB := f))])
    else Err(IllegalArgument("invalid team id"))
  }

  /** A manager of team 200 editing side A of a 200-vs-300 quarter is
      refused by the as-written comparison. */
  lemma BoxedComparisonRejectsLargeIds()
    ensures var q := Quarter(Persisted(1), 5, 200, 300, 1, 0, NewFormation(200, 300), 1);
            var admin := Members.TeamMember(Persisted(9), 42, 200, None, None,
                                            Members.NoRole, Members.Admin, Members.Accepted);
            var f := TeamFormation(200, "4-4-2");
            && UpdateQuarterFormationAsWritten([admin], [q], 42, 5, 1, f)
               == Err(IllegalArgument("invalid team id"))
            && UpdateQuarterFormation([admin], [q], 42, 5, 1, f).Ok?
  {
    var q := Quarter(Persisted(1), 5, 200, 300, 1, 0, NewFormation(200, 300), 1);
    var admin := Members.TeamMember(Persisted(9), 42, 200, None, None,
                                    Members.NoRole, Members.Admin, Members.Accepted);
    var f := TeamFormation(200, "4-4-2");
    assert Members.FindByTeamAndUser([admin], 200, 42) == Some(admin);
    assert FormationEditTarget([admin], [q], 42, 5, 1, f) == Ok(0);
  }

  /** `updateQuarterFormation` with value equality of ids, as evidently
      intended: the request's side of the quarter takes the new formation,
      the other side and every other quarter stay; a team that is neither
      side is refused with nothing changed. */
  function UpdateQuarterFormation(members: seq<Members.TeamMember>, qs: seq<Quarter>,
                                  caller: int, matchId: int, quarterId: int,
                                  f: TeamFormation): (r: Result<seq<Quarter>>)
    ensures r.Ok? ==> |r.value| == |qs|
    ensures r.Ok? ==> exists i :: (0 <= i < |qs| && qs[i].key.id == Some(quarterId)
      && qs[i].matchId == matchId
      && (forall j :: 0 <= j < |qs| && j != i ==> r.value[j] == qs[j])
      && var q, q' := qs[i], r.value[i];
         && q'.(formation := q.formation) == q
         && (if q.formation.teamA.teamId == f.teamId
             then q'.formation == q.formation.(teamA := f)
             else q.formation.teamB.teamId == f.teamId && q'.formation == q.formation.(teamB := f)))
    ensures FormationEditTarget(members, qs, caller, matchId, quarterId, f).Err? ==>
            r == Err(FormationEditTarget(members, qs, caller, matchId, quarterId, f).error)
    ensures FormationEditTarget(members, qs, caller, matchId, quarterId, f).Ok? ==>
            var q := qs[FormationEditTarget(members, qs, caller, matchId, quarterId, f).value];
            (r.Err? <==> q.formation.teamA.teamId != f.teamId && q.formation.teamB.teamId != f.teamId)
    ensures FormationEditTarget(members, qs, caller, matchId, quarterId, f).Ok? && r.Err? ==>
            r.error == IllegalArgument("invalid team id")
  {
    var i :- FormationEditTarget(members, qs, caller, matchId, quarterId, f);
    var q := qs[i];
    if q.formation.teamA.teamId == f.teamId then
      Ok(qs[i := q.(formation := q.formation.(teamA := f))])
    else if q.formation.teamB.teamId == f.teamId then
      Ok(qs[i := q.(formation := q.formation.(teamB := f))])
    else Err(IllegalArgument("invalid team id"))
  }
}

=== FILE: rankings.dfy ===
/** The three ranking queries over the attack-point table: per-type solo
    counts, attack-point (goal plus assist) solo counts, and counts of
    scorer/assister pairs, each grouped, ordered by count descending and
    paged. */
module Rankings {
  import opened Common
  import opened Grouping
  import opened AttackPoints

  /** The per-type `where` clause and selected column: rows of the team
      and type give their user, which drops rows whose user is null. */
  function TypeSelect(team: int, kind: PointType): AttackPoint -> Option<int> {
    (p: AttackPoint) => if p.team == team && p.kind == kind then p.user else None
  }

  /** The user ids the per-type query groups. */
  function TypeKeys(events: seq<AttackPoint>, team: int, kind: PointType): seq<int> {
    FilterMap(events, TypeSelect(team, kind))
  }

  /** `countAttackPointsByTeamIdAndType`. */
  function CountByType(events: seq<AttackPoint>, team: int, kind: PointType,
                       limit: nat, offset: nat): seq<Row<int>> {
    RankPage(TypeKeys(events, team, kind), limit, offset)
  }

  /** The attack-point `where` clause: rows of the team that are not own
      goals give their user. */
  function AttackSelect(team: int): AttackPoint -> Option<int> {
    (p: AttackPoint) => if p.team == team && p.kind != OwnGoal then p.user else None
  }

  function AttackKeys(events: seq<AttackPoint>, team: int): seq<int> {
    FilterMap(events, AttackSelect(team))
  }

  /** `countAttackPointsByTeamIdAndUserId`. */
  function CountAttackPoints(events: seq<AttackPoint>, team: int, limit: nat, offset: nat)
    : seq<Row<int>> {
    RankPage(AttackKeys(events, team), limit, offset)
  }

  /** Positions of the rows with that team, that type and that user. */
  ghost function RowsOf(events: seq<AttackPoint>, team: int, kind: PointType, u: int): set<nat> {
    set i: nat | i < |events| && events[i].team == team && events[i].kind == kind
                              && events[i].user == Some(u)
  }

  /** The per-type count of a user is the number of rows with that team,
      that type and that user. */
  lemma TypeCountIsRowCount(events: seq<AttackPoint>, team: int, kind: PointType, u: int)
    ensures Occ(TypeKeys(events, team, kind), u) == |RowsOf(events, team, kind, u)|
  {
    var f := TypeSelect(team, kind);
    OccFilterMap(events, f, u);
    assert Hits(events, f, u) == RowsOf(events, team, kind, u);
  }

  /** The rows the attack-point query counts for a user are that user's
      goal rows and assist rows, which are disjoint. */
  lemma AttackRowsSplit(events: seq<AttackPoint>, team: int, u: int)
    ensures |Hits(events, AttackSelect(team), u)|
            == |RowsOf(events, team, Goal, u)| + |RowsOf(events, team, Assist, u)|
  {
    var goals, assists := RowsOf(events, team, Goal, u), RowsOf(events, team, Assist, u);
    assert Hits(events, AttackSelect(team), u) == goals + assists;
    assert goals * assists == {};
  }

  /** A user's attack points are their goals plus their assists: own goals
      never count. */
  lemma AttackCountIsGoalsPlusAssists(events: seq<AttackPoint>, team: int, u: int)
    ensures Occ(AttackKeys(events, team), u)
            == Occ(TypeKeys(events, team, Goal), u) + Occ(TypeKeys(events, team, Assist), u)
  {
    OccFilterMap(events, AttackSelect(team), u);
    TypeCountIsRowCount(events, team, Goal, u);
    TypeCountIsRowCount(events, team, Assist, u);
    AttackRowsSplit(events, team, u);
  }

  // ---------------------------------------------------------------------
  // Scorer/assister pairs

  /** `(least(goal.user_id, assist.user_id), greatest(...))`; with a null
      assister both columns are null. */
  datatype DuoKey = Duo(low: int, high: int) | NullDuo

  function DuoKeyOf(goalUser: int, assistUser: Option<int>): (k: DuoKey)
    ensures assistUser.None? <==> k == NullDuo
    ensures k.Duo? ==> k.low <= k.high && {k.low, k.high} == {goalUser, assistUser.value}
  {
    match assistUser
    case None => NullDuo
    case Some(a) => if goalUser <= a then Duo(goalUser, a) else Duo(a, goalUser)
  }

  /** Which way round the pair scored does not matter. */
  lemma DuoKeyDirectionFree(x: int, y: int)
    ensures DuoKeyOf(x, Some(y)) == DuoKeyOf(y, Some(x))
  {
    var k, k' := DuoKeyOf(x, Some(y)), DuoKeyOf(y, Some(x));
    assert {k.low, k.high} == {k'.low, k'.high};
    assert k.low == (if x <= y then x else y) && k'.low == (if x <= y then x else y);
  }

  /** The goal side of the join: a row of the team that is not an own goal
      and has a user. */
  predicate CountedGoal(g: AttackPoint, team: int) {
    g.team == team && g.kind != OwnGoal && g.user.Some?
  }

  /** The join condition and the pair key, for the goal with reference
      `goalRef` scored by `goalUser`. */
  function JoinSelect(goalRef: nat, goalUser: int): AttackPoint -> Option<DuoKey> {
    (a: AttackPoint) => if a.goal == Some(goalRef) then Some(DuoKeyOf(goalUser, a.user)) else None
  }

  /** The keys of the rows joined to the goal with reference `goalRef`. */
  function JoinedTo(events: seq<AttackPoint>, goalRef: nat, goalUser: int): seq<DuoKey> {
    FilterMap(events, JoinSelect(goalRef, goalUser))
  }

  /** The join `goal.id = assist.goal_id`, with the goal side taken from
      the first `n` rows. */
  function DuoKeysUpTo(events: seq<AttackPoint>, team: int, n: nat): seq<DuoKey>
    requires n <= |events|
  {
    if n == 0 then []
    else
      var g := events[n - 1];
      DuoKeysUpTo(events, team, n - 1)
      + if CountedGoal(g, team) then JoinedTo(events, g.key.ref, g.user.value) else []
  }

  function DuoKeys(events: seq<AttackPoint>, team: int): seq<DuoKey> {
    DuoKeysUpTo(events, team, |events|)
  }

  /** `countDuoAttackPointsByTeamIdAndGoal`. */
  function CountDuos(events: seq<AttackPoint>, team: int, limit: nat, offset: nat)
    : seq<Row<DuoKey>> {
    RankPage(DuoKeys(events, team), limit, offset)
  }

  /** Row `i` is a counted goal and row `j` links to it under key `k`. */
  ghost predicate PairAt(events: seq<AttackPoint>, team: int, k: DuoKey, i: nat, j: nat) {
    && i < |events| && j < |events| && CountedGoal(events[i], team)
    && events[j].goal == Some(events[i].key.ref)
    && DuoKeyOf(events[i].user.value, events[j].user) == k
  }

  /** Every joined (goal row, linked row) pair with key `k`, the goal row
      among the first `n`. */
  ghost function JoinedPairs(events: seq<AttackPoint>, team: int, k: DuoKey, n: nat): set<(nat, nat)>
    requires n <= |events|
  {
    set i: nat, j: nat | i < n && j < |events| && PairAt(events, team, k, i, j) :: (i, j)
  }

  /** For a counted goal row, its partners under `k` are the rows the join
      selector maps to `k`. */
  lemma PairAtIsHit(events: seq<AttackPoint>, team: int, k: DuoKey, i: nat, j: nat)
    requires i < |events| && CountedGoal(events[i], team)
    ensures PairAt(events, team, k, i, j)
            <==> j in Hits(events, JoinSelect(events[i].key.ref, events[i].user.value), k)
  {
  }

  /** The pairs with first component `n` and second in `js`. */
  ghost function WithFirst(n: nat, js: set<nat>): set<(nat, nat)> {
    set j | j in js :: (n, j)
  }

  lemma {:induction false} WithFirstSize(n: nat, js: set<nat>)
    ensures |WithFirst(n, js)| == |js|
  {
    if js != {} {
      var x :| x in js;
      WithFirstSize(n, js - {x});
      assert WithFirst(n, js) == WithFirst(n, js - {x}) + {(n, x)};
    } else {
      assert WithFirst(n, js) == {};
    }
  }

  /** Taking one more goal row adds the pairs it forms, and only if it is
      a counted goal. */
  lemma JoinedPairsStep(events: seq<AttackPoint>, team: int, k: DuoKey, n: nat)
    requires 0 < n <= |events|
    ensures var g := events[n - 1];
            |JoinedPairs(events, team, k, n)| == |JoinedPairs(events, team, k, n - 1)|
            + (if CountedGoal(g, team) then |Hits(events, JoinSelect(g.key.ref, g.user.value), k)| else 0)
  {
    var g := events[n - 1];
    var before := JoinedPairs(events, team, k, n - 1);
    if CountedGoal(g, team) {
      var js := Hits(events, JoinSelect(g.key.ref, g.user.value), k);
      var added := WithFirst(n - 1, js);
      forall p | p in JoinedPairs(events, team, k, n)
        ensures p in before + added
      {
        if p.0 == n - 1 {
          PairAtIsHit(events, team, k, n - 1, p.1);
        }
      }
      forall p | p in added
        ensures p in JoinedPairs(events, team, k, n)
      {
        PairAtIsHit(events, team, k, n - 1, p.1);
      }
      assert JoinedPairs(events, team, k, n) == before + added;
      assert before * added == {};
      WithFirstSize(n - 1, js);
    } else {
      assert JoinedPairs(events, team, k, n) == before;
    }
  }

  /** The count of a pair key is the number of joined (goal, linked row)
      pairs that produce it. */
  lemma {:induction false} DuoCountIsPairCount(events: seq<AttackPoint>, team: int, k: DuoKey, n: nat)
    requires n <= |events|
    ensures Occ(DuoKeysUpTo(events, team, n), k) == |JoinedPairs(events, team, k, n)|
  {
    if n == 0 {
      assert JoinedPairs(events, team, k, n) == {};
    } else {
      var g := events[n - 1];
      var before := DuoKeysUpTo(events, team, n - 1);
      DuoCountIsPairCount(events, team, k, n - 1);
      JoinedPairsStep(events, team, k, n);
      if CountedGoal(g, team) {
        var f := JoinSelect(g.key.ref, g.user.value);
        OccConcat(before, JoinedTo(events, g.key.ref, g.user.value), k);
        OccFilterMap(events, f, k);
      } else {
        assert before + [] == before;
      }
    }
  }

  /** Some row links to the event with reference `ref`. */
  ghost predicate Linked(events: seq<AttackPoint>, ref: nat) {
    exists j :: 0 <= j < |events| && events[j].goal == Some(ref)
  }

  /** Each event is the goal of at most one row, as the service saves them. */
  ghost predicate OneLinkPerGoal(events: seq<AttackPoint>) {
    forall j1, j2 :: (0 <= j1 < |events| && 0 <= j2 < |events| && events[j1].goal.Some?
                      && events[j1].goal == events[j2].goal) ==> j1 == j2
  }

  /** Positions of `s` that `f` keeps. */
  ghost function Kept<T, K>(s: seq<T>, f: T -> Option<K>): set<nat> {
    set i: nat | i < |s| && f(s[i]).Some?
  }

  lemma {:induction false} LengthFilterMap<T, K>(s: seq<T>, f: T -> Option<K>)
    ensures |FilterMap(s, f)| == |Kept(s, f)|
  {
    if |s| > 0 {
      var n := |s| - 1;
      LengthFilterMap(s[..n], f);
      assert Kept(s[..n], f) == set i: nat | i < n && f(s[i]).Some?;
      if f(s[n]).Some? {
        assert Kept(s, f) == Kept(s[..n], f) + {n};
      } else {
        assert Kept(s, f) == Kept(s[..n], f);
      }
    }
  }

  lemma JoinedToLength(events: seq<AttackPoint>, ref: nat, u: int)
    requires OneLinkPerGoal(events)
    ensures |JoinedTo(events, ref, u)| == if Linked(events, ref) then 1 else 0
  {
    var f := JoinSelect(ref, u);
    LengthFilterMap(events, f);
    var js := Kept(events, f);
    if Linked(events, ref) {
      var j0 :| 0 <= j0 < |events| && events[j0].goal == Some(ref);
      forall j | j in js
        ensures j == j0
      {
        assert events[j].goal == Some(ref);
      }
      assert j0 in js;
      assert js == {j0};
    } else {
      assert js == {};
    }
  }

  /** The counted goal rows among the first `n` that some row links to. */
  ghost function LinkedGoals(events: seq<AttackPoint>, team: int, n: nat): set<nat> {
    set i: nat | i < n && i < |events| && CountedGoal(events[i], team) && Linked(events, events[i].key.ref)
  }

  lemma LinkedGoalsStep(events: seq<AttackPoint>, team: int, n: nat)
    requires 0 < n <= |events|
    ensures |LinkedGoals(events, team, n)|
            == |LinkedGoals(events, team, n - 1)|
               + if CountedGoal(events[n - 1], team) && Linked(events, events[n - 1].key.ref) then 1 else 0
  {
    var before := LinkedGoals(events, team, n - 1);
    assert n - 1 !in before;
    if CountedGoal(events[n - 1], team) && Linked(events, events[n - 1].key.ref) {
      assert LinkedGoals(events, team, n) == before + {n - 1};
    } else {
      assert LinkedGoals(events, team, n) == before;
    }
  }

  lemma {:induction false} DuoKeysUpToLength(events: seq<AttackPoint>, team: int, n: nat)
    requires n <= |events|
    requires OneLinkPerGoal(events)
    ensures |DuoKeysUpTo(events, team, n)| == |LinkedGoals(events, team, n)|
  {
    if n == 0 {
      assert LinkedGoals(events, team, n) == {};
    } else {
      var g := events[n - 1];
      DuoKeysUpToLength(events, team, n - 1);
      LinkedGoalsStep(events, team, n);
      if CountedGoal(g, team) {
        JoinedToLength(events, g.key.ref, g.user.value);
      }
    }
  }

  /** Unpaged, the pair counts add up to the number of counted goals that
      have a linked row, when every goal has at most one such row. */
  lemma DuoCountsSumToLinkedGoals(events: seq<AttackPoint>, team: int)
    requires OneLinkPerGoal(events)
    ensures SumCounts(Rank(DuoKeys(events, team))) == |LinkedGoals(events, team, |events|)|
  {
    RankCountsSum(DuoKeys(events, team));
    DuoKeysUpToLength(events, team, |events|);
  }
}

=== FILE: statistics.dfy ===
/** The statistics service: which ranking query a statistic type runs, the
    page arithmetic, and the join of the returned user ids back to users. */
module Statistics {
  import opened Common
  import opened Grouping
  import opened AttackPoints
  import opened Rankings

  datatype StatisticsType = GoalStat | AssistStat | AttackPointStat

  /** `PageRequest.getOffset()`: the rows of the earlier pages. */
  function Offset(page: nat, pageSize: nat): nat {
    page * pageSize
  }

  /** The keys the query of a statistic type groups. */
  function StatKeys(events: seq<AttackPoint>, team: int, t: StatisticsType): seq<int> {
    match t
    case GoalStat => TypeKeys(events, team, Goal)
    case AssistStat => TypeKeys(events, team, Assist)
    case AttackPointStat => AttackKeys(events, team)
  }

  /** What a user's statistic counts, row by row: their goal rows, their
      assist rows, or both. */
  ghost function StatCount(events: seq<AttackPoint>, team: int, t: StatisticsType, u: int): nat {
    match t
    case GoalStat => |RowsOf(events, team, Goal, u)|
    case AssistStat => |RowsOf(events, team, Assist, u)|
    case AttackPointStat => |RowsOf(events, team, Goal, u)| + |RowsOf(events, team, Assist, u)|
  }

  lemma StatKeysCount(events: seq<AttackPoint>, team: int, t: StatisticsType, u: int)
    ensures Occ(StatKeys(events, team, t), u) == StatCount(events, team, t, u)
  {
    TypeCountIsRowCount(events, team, Goal, u);
    TypeCountIsRowCount(events, team, Assist, u);
    AttackCountIsGoalsPlusAssists(events, team, u);
  }

  /** The query rows `getTopMembers` reads: GOAL and ASSIST run the
      per-type query, ATTACK_POINT the query without own goals, each with
      limit = page size and offset = page * page size. */
  function TopRows(events: seq<AttackPoint>, team: int, t: StatisticsType,
                   page: nat, pageSize: nat): (r: seq<Row<int>>)
    ensures |r| <= pageSize
    ensures DistinctKeys(r) && CountDescending(r)
    ensures forall i :: 0 <= i < |r| ==>
      r[i].count == StatCount(events, team, t, r[i].key) && r[i].count > 0
    ensures exists full :: IsRanking(StatKeys(events, team, t), full)
                          && r == Page(full, pageSize, Offset(page, pageSize))
  {
    var r := match t
      case GoalStat => CountByType(events, team, Goal, pageSize, Offset(page, pageSize))
      case AssistStat => CountByType(events, team, Assist, pageSize, Offset(page, pageSize))
      case AttackPointStat => CountAttackPoints(events, team, pageSize, Offset(page, pageSize));
    assert r == RankPage(StatKeys(events, team, t), pageSize, Offset(page, pageSize));
    forall i | 0 <= i < |r|
      ensures r[i].count == StatCount(events, team, t, r[i].key) && r[i].count > 0
    {
      StatKeysCount(events, team, t, r[i].key);
      OccPositive(StatKeys(events, team, t), r[i].key);
    }
    r
  }

  /** The user store is keyed by user id. */
  ghost predicate UsersKeyedById(users: map<int, User>) {
    forall id :: id in users ==> users[id].id == id
  }

  /** `getUserIdMap`: each requested id that names a user maps to that
      user; ids with no user are absent. */
  function GetUserIdMap(users: map<int, User>, ids: seq<int>): (m: map<int, User>)
    ensures forall id :: id in m <==> id in users && id in ids
    ensures forall id :: id in m ==> m[id] == users[id]
    ensures UsersKeyedById(users) ==> forall id :: id in m ==> m[id].id == id
  {
    map id | id in users && id in ids :: users[id]
  }

  datatype SoloRecord = SoloRecord(user: Option<User>, count: nat)

  /** `HashMap.get`: the user under the id, or null. */
  function Lookup(m: map<int, User>, id: Option<int>): Option<User> {
    match id
    case None => None
    case Some(k) => if k in m then Some(m[k]) else None
  }

  /** The user ids of the query rows, in order. */
  function RowKeys<K>(rows: seq<Row<K>>): (ids: seq<K>)
    ensures |ids| == |rows|
    ensures forall i :: 0 <= i < |rows| ==> ids[i] == rows[i].key
  {
    seq(|rows|, i requires 0 <= i < |rows| => rows[i].key)
  }

  /** Looking a requested id up in the id map finds what the store holds
      under it; in a store keyed by id, that user carries the id. */
  lemma LookupThroughIdMap(users: map<int, User>, ids: seq<int>, id: int)
    requires id in ids
    ensures Lookup(GetUserIdMap(users, ids), Some(id)) == Lookup(users, Some(id))
    ensures UsersKeyedById(users) && Lookup(users, Some(id)).Some? ==> Lookup(users, Some(id)).value.id == id
  {
  }

  /** One record per row: the user the map holds under the row's id, and
      the row's count. */
  function SoloRecords(m: map<int, User>, rows: seq<Row<int>>): (r: seq<SoloRecord>)
    ensures |r| == |rows|
    ensures forall i :: 0 <= i < |rows| ==> r[i] == SoloRecord(Lookup(m, Some(rows[i].key)), rows[i].count)
  {
    seq(|rows|, i requires 0 <= i < |rows| => SoloRecord(Lookup(m, Some(rows[i].key)), rows[i].count))
  }

  /** `getTopMembers`: one record per query row, in the query's order, each
      with the row's count and the user with the row's id, if there is
      one. */
  function GetTopMembers(users: map<int, User>, events: seq<AttackPoint>, team: int,
                         t: StatisticsType, page: nat, pageSize: nat): (r: seq<SoloRecord>)
    ensures var rows := TopRows(events, team, t, page, pageSize);
      && |r| == |rows| <= pageSize
      && (forall i :: 0 <= i < |r| ==> r[i].count == rows[i].count)
      && (forall i :: 0 <= i < |r| ==> r[i].user == Lookup(users, Some(rows[i].key)))
    ensures UsersKeyedById(users) ==> forall i :: 0 <= i < |r| && r[i].user.Some? ==>
      r[i].count == StatCount(events, team, t, r[i].user.value.id)
    ensures forall i, j :: 0 <= i < j < |r| ==> r[i].count >= r[j].count
  {
    var rows := TopRows(events, team, t, page, pageSize);
    var ids := RowKeys(rows);
    var r := SoloRecords(GetUserIdMap(users, ids), rows);
    forall i | 0 <= i < |rows|
      ensures r[i].user == Lookup(users, Some(rows[i].key))
      ensures UsersKeyedById(users) && r[i].user.Some? ==> r[i].user.value.id == rows[i].key
    {
      assert ids[i] == rows[i].key;
      LookupThroughIdMap(users, ids, rows[i].key);
    }
    r
  }

  datatype DuoRecord = DuoRecord(user1: Option<User>, user2: Option<User>, count: nat)

  function Low(k: DuoKey): Option<int> {
    match k case NullDuo => None case Duo(low, _) => Some(low)
  }

  function High(k: DuoKey): Option<int> {
    match k case NullDuo => None case Duo(_, high) => Some(high)
  }

  /** The ids the duo lookup requests: userId1 and userId2 of every row, in
      row order (nulls for a row with no assister). */
  function DuoLookupIds(rows: seq<Row<DuoKey>>): (ids: seq<Option<int>>)
    ensures |ids| == 2 * |rows|
    ensures forall i :: 0 <= i < |rows| ==> ids[2 * i] == Low(rows[i].key) && ids[2 * i + 1] == High(rows[i].key)
  {
    if |rows| == 0 then []
    else [Low(rows[0].key), High(rows[0].key)] + DuoLookupIds(rows[1..])
  }

  /** The non-null requested ids. */
  function PresentIds(ids: seq<Option<int>>): (r: seq<int>)
    ensures forall k :: k in r <==> Some(k) in ids
  {
    if |ids| == 0 then []
    else (match ids[0] case None => [] case Some(k) => [k]) + PresentIds(ids[1..])
  }

  /** Looking up a requested id, or null, through the map of the non-null
      requested ids finds what the store holds. */
  lemma LookupPresent(users: map<int, User>, ids: seq<Option<int>>, o: Option<int>)
    requires o.None? || o in ids
    ensures Lookup(GetUserIdMap(users, PresentIds(ids)), o) == Lookup(users, o)
  {
  }

  /** One record per pair row: both users as the map holds them, and the
      row's count. */
  function DuoRecords(m: map<int, User>, rows: seq<Row<DuoKey>>): (r: seq<DuoRecord>)
    ensures |r| == |rows|
    ensures forall i :: 0 <= i < |rows| ==>
      r[i] == DuoRecord(Lookup(m, Low(rows[i].key)), Lookup(m, High(rows[i].key)), rows[i].count)
  {
    seq(|rows|, i requires 0 <= i < |rows| =>
          DuoRecord(Lookup(m, Low(rows[i].key)), Lookup(m, High(rows[i].key)), rows[i].count))
  }

  /** `getTopDuoMembers`: one record per pair row, in the query's order,
      with both users looked up and the row's count. */
  function GetTopDuoMembers(users: map<int, User>, events: seq<AttackPoint>, team: int,
                            page: nat, pageSize: nat): (r: seq<DuoRecord>)
    ensures var rows := CountDuos(events, team, pageSize, Offset(page, pageSize));
      && |r| == |rows| <= pageSize
      && (forall i :: 0 <= i < |r| ==>
            && r[i].count == rows[i].count
            && r[i].count == |JoinedPairs(events, team, rows[i].key, |events|)|
            && r[i].user1 == Lookup(users, Low(rows[i].key))
            && r[i].user2 == Lookup(users, High(rows[i].key)))
    ensures forall i, j :: 0 <= i < j < |r| ==> r[i].count >= r[j].count
  {
    var rows := CountDuos(events, team, pageSize, Offset(page, pageSize));
    var ids := DuoLookupIds(rows);
    var r := DuoRecords(GetUserIdMap(users, PresentIds(ids)), rows);
    forall i | 0 <= i < |rows|
      ensures rows[i].count == |JoinedPairs(events, team, rows[i].key, |events|)|
      ensures r[i].user1 == Lookup(users, Low(rows[i].key))
      ensures r[i].user2 == Lookup(users, High(rows[i].key))
    {
      DuoCountIsPairCount(events, team, rows[i].key, |events|);
      assert ids[2 * i] == Low(rows[i].key) && ids[2 * i + 1] == High(rows[i].key);
      LookupPresent(users, ids, Low(rows[i].key));
      LookupPresent(users, ids, High(rows[i].key));
    }
    r
  }
}

=== FILE: team_record.dfy ===
/** The per-team ledger row (`TeamRecord`) and the bulk update the record
    repository runs on it. The store of rows is a map from team id to row,
    since the `team_id` column carries a unique index. */
module TeamRecords {
  import opened Common

  /** `winRate` is a floating-point column and is not part of the model. */
  datatype TeamRecord = TeamRecord(
    key: EntityKey,
    team: int,
    win: int,
    lose: int,
    draw: int,
    goals: int,
    lostGoals: int)

  /** Number of quarter outcomes the row accounts for. */
  function Total(r: TeamRecord): int {
    r.win + r.draw + r.lose
  }

  /** `new TeamRecord(team)`: every counter starts at zero. */
  function NewTeamRecord(key: EntityKey, team: int): (r: TeamRecord)
    ensures r.key == key && r.team == team
    ensures Total(r) == 0 && r.win == 0 && r.draw == 0 && r.lose == 0
    ensures r.goals == 0 && r.lostGoals == 0
  {
    TeamRecord(key, team, 0, 0, 0, 0, 0)
  }

  // ---------------------------------------------------------------------
  // Entity-side counter update

  /** `updateRecord` as the entity writes it: the new `lose` is computed
      from the win count it has just updated, not from the old `lose`. */
  function UpdateRecordAsWritten(r: TeamRecord, win: int, draw: int, lose: int,
                                 goals: int, lostGoals: int): (r': TeamRecord)
    ensures r'.lose == r'.win + lose
    ensures r'.win - r.win == win && r'.draw - r.draw == draw
    ensures r'.goals - r.goals == goals && r'.lostGoals - r.lostGoals == lostGoals
    ensures r'.key == r.key && r'.team == r.team
  {
    var w := r.win + win;
    r.(win := w, draw := r.draw + draw, lose := w + lose,
       goals := r.goals + goals, lostGoals := r.lostGoals + lostGoals)
  }

  /** A row with 3 wins and 1 loss that records one more loss ends with 4
      losses instead of 2: the as-written update drops the old loss count. */
  lemma UpdateRecordAsWrittenLosesLosses()
    ensures var r := TeamRecord(Persisted(1), 7, 3, 1, 0, 0, 0);
            UpdateRecordAsWritten(r, 0, 0, 1, 0, 0).lose == 4
            && UpdateRecord(r, 0, 0, 1, 0, 0).lose == 2
  {
  }

  /** The as-written update is not additive, although a counter update
      evidently should be: two updates of one loss each differ from a
      single update of two losses. */
  lemma UpdateRecordAsWrittenNotAdditive()
    ensures var r := TeamRecord(Persisted(1), 7, 3, 1, 0, 0, 0);
            UpdateRecordAsWritten(UpdateRecordAsWritten(r, 0, 0, 1, 0, 0), 0, 0, 1, 0, 0)
            != UpdateRecordAsWritten(r, 0, 0, 2, 0, 0)
  {
  }

  /** `updateRecord` as evidently intended: every counter grows by its own
      delta. */
  function UpdateRecord(r: TeamRecord, win: int, draw: int, lose: int,
                        goals: int, lostGoals: int): (r': TeamRecord)
    ensures Total(r') == Total(r) + win + draw + lose
    ensures r'.win - r.win == win && r'.draw - r.draw == draw && r'.lose - r.lose == lose
    ensures r'.goals - r.goals == goals && r'.lostGoals - r.lostGoals == lostGoals
    ensures r'.key == r.key && r'.team == r.team
  {
    r.(win := r.win + win, draw := r.draw + draw, lose := r.lose + lose,
       goals := r.goals + goals, lostGoals := r.lostGoals + lostGoals)
  }

  /** The intended update is additive and so composes: two updates are one
      update by the summed deltas. */
  lemma UpdateRecordAdditive(r: TeamRecord, w1: int, d1: int, l1: int, g1: int, lg1: int,
                             w2: int, d2: int, l2: int, g2: int, lg2: int)
    ensures UpdateRecord(UpdateRecord(r, w1, d1, l1, g1, lg1), w2, d2, l2, g2, lg2)
            == UpdateRecord(r, w1 + w2, d1 + d2, l1 + l2, g1 + g2, lg1 + lg2)
  {
  }

  // ---------------------------------------------------------------------
  // Repository bulk update

  /** Row-wise effect of the JPQL `update ... where r.team = :team`: win,
      draw and lose of that team's row grow by the deltas; goal columns stay.
      A team without a row matches no row and nothing changes. */
  function AddOutcome(records: map<int, TeamRecord>, team: int,
                      win: int, draw: int, lose: int): (r: map<int, TeamRecord>)
    ensures r.Keys == records.Keys
    ensures forall t :: t in records && t != team ==> r[t] == records[t]
    ensures team in records ==>
      && r[team].win == records[team].win + win
      && r[team].draw == records[team].draw + draw
      && r[team].lose == records[team].lose + lose
      && Total(r[team]) == Total(records[team]) + win + draw + lose
    ensures forall t :: t in records ==>
      r[t].goals == records[t].goals && r[t].lostGoals == records[t].lostGoals
      && r[t].key == records[t].key && r[t].team == records[t].team
  {
    if team in records then
      var old_ := records[team];
      records[team := old_.(win := old_.win + win, draw := old_.draw + draw, lose := old_.lose + lose)]
    else records
  }

  /** Two bulk updates of one row are one update by the summed deltas. */
  lemma AddOutcomeAdditive(records: map<int, TeamRecord>, team: int,
                           w1: int, d1: int, l1: int, w2: int, d2: int, l2: int)
    ensures AddOutcome(AddOutcome(records, team, w1, d1, l1), team, w2, d2, l2)
            == AddOutcome(records, team, w1 + w2, d1 + d2, l1 + l2)
  {
  }

  /** Updates of two rows commute, whether the rows differ or coincide. */
  lemma AddOutcomeCommutes(records: map<int, TeamRecord>, s: int, w1: int, d1: int, l1: int,
                           t: int, w2: int, d2: int, l2: int)
    ensures AddOutcome(AddOutcome(records, s, w1, d1, l1), t, w2, d2, l2)
            == AddOutcome(AddOutcome(records, t, w2, d2, l2), s, w1, d1, l1)
  {
    if s == t {
      AddOutcomeAdditive(records, s, w1, d1, l1, w2, d2, l2);
      AddOutcomeAdditive(records, s, w2, d2, l2, w1, d1, l1);
    }
  }

  /** Not an operation of the back end, which never reverses an outcome:
      a bulk update by the negated deltas would undo one by the deltas. */
  lemma AddOutcomeNegatedCancels(records: map<int, TeamRecord>, team: int,
                                 win: int, draw: int, lose: int)
    ensures AddOutcome(AddOutcome(records, team, win, draw, lose), team, -win, -draw, -lose)
            == records
  {
    AddOutcomeAdditive(records, team, win, draw, lose, -win, -draw, -lose);
  }
}

=== FILE: team_service.dfy ===
/** The team service: creating a team with its owner membership and zero
    record, lookup, the manager-only edits of name, location and logo, and
    the teams a user has joined. */
module TeamService {
  import opened Common
  import opened Members
  import opened TeamRecords

  /** The team's location point, carried as an opaque value. */
  datatype Location = Location(longitude: real, latitude: real)

  datatype Team = Team(id: int, owner: int, name: string, logoUrl: Option<string>, location: Location)

  datatype Store = Store(teams: map<int, Team>, members: seq<TeamMember>, records: map<int, TeamRecord>)

  /** `createTeam`: the team, its owner as sole accepted ADMIN member, and
      a zeroed record, saved together under fresh ids. */
  function CreateTeam(s: Store, user: int, name: string, logoUrl: Option<string>, location: Location,
                      teamId: nat, memberId: nat, recordId: nat): (r: (Store, Team))
    requires teamId !in s.teams && teamId !in s.records
    requires forall i :: 0 <= i < |s.members| ==> s.members[i].team != teamId
    ensures var (s', t) := r;
      && t == Team(teamId, user, name, logoUrl, location)
      && s'.teams == s.teams[teamId := t]
      && |s'.members| == |s.members| + 1 && s'.members[..|s.members|] == s.members
      && (forall i :: 0 <= i < |s'.members| && s'.members[i].team == teamId ==>
            i == |s.members| && s'.members[i].user == user)
      && s'.records.Keys == s.records.Keys + {teamId}
      && (forall k :: k in s.records ==> s'.records[k] == s.records[k])
      && Total(s'.records[teamId]) == 0 && s'.records[teamId].team == teamId
      && s'.records[teamId].goals == 0 && s'.records[teamId].lostGoals == 0
    ensures Authorize(r.0.members, teamId, user, ResourceNotFound("team member")).Ok?
    ensures var owner := r.0.members[|s.members|];
      owner.permission == Admin && owner.acceptStatus == Accepted && owner.role == NoRole
  {
    var team := Team(teamId, user, name, logoUrl, location);
    var owner := TeamMember(Persisted(memberId), user, teamId, None, None, NoRole, Admin, Accepted);
    var members := s.members + [owner];
    assert members[|s.members|] == owner;
    assert forall m :: m in members && m.team == teamId ==> m == owner;
    (Store(s.teams[teamId := team], members,
           s.records[teamId := NewTeamRecord(Persisted(recordId), teamId)]), team)
  }

  /** Creating a team keeps one membership row per (team, user) and one id
      per row. */
  lemma CreateTeamKeepsWellFormed(s: Store, user: int, name: string, logoUrl: Option<string>,
                                  location: Location, teamId: nat, memberId: nat, recordId: nat)
    requires teamId !in s.teams && teamId !in s.records
    requires forall i :: 0 <= i < |s.members| ==> s.members[i].team != teamId
    requires forall i :: 0 <= i < |s.members| ==> s.members[i].key.id != Some(memberId as int)
    requires WellFormed(s.members)
    ensures WellFormed(CreateTeam(s, user, name, logoUrl, location, teamId, memberId, recordId).0.members)
  {
    var ms' := CreateTeam(s, user, name, logoUrl, location, teamId, memberId, recordId).0.members;
    forall i, j | 0 <= i < j < |ms'|
      ensures ms'[i].team != ms'[j].team || ms'[i].user != ms'[j].user
      ensures ms'[i].key.id != ms'[j].key.id
    {
      if j == |s.members| {
        assert ms'[i] == s.members[i];
      }
    }
  }

  /** `getTeamById`. */
  function GetTeamById(teams: map<int, Team>, id: int): (r: Result<Team>)
    ensures r.Ok? <==> id in teams
    ensures r.Ok? ==> r.value == teams[id]
    ensures r.Err? ==> r.error == ResourceNotFound("team")
  {
    if id in teams then Ok(teams[id]) else Err(ResourceNotFound("team"))
  }

  /** `HasCurrentUserPermissionOnTeam` and its caller's check: a caller
      with no row is a missing team member here, not FORBIDDEN. */
  function TeamPermission(ms: seq<TeamMember>, team: int, caller: int): (r: Result<()>)
    ensures FindByTeamAndUser(ms, team, caller).None? <==> r == Err(ResourceNotFound("team member"))
    ensures FindByTeamAndUser(ms, team, caller).Some? ==>
            (r.Ok? <==> HasManagePermission(FindByTeamAndUser(ms, team, caller).value))
    ensures r.Err? && r.error != ResourceNotFound("team member") ==> r.error == NoPermissionOnTeam
  {
    Authorize(ms, team, caller, ResourceNotFound("team member"))
  }

  /** `editTeam`: a manager renames and relocates the team; nothing else
      changes. */
  function EditTeam(s: Store, caller: int, teamId: int, name: string, location: Location)
    : (r: Result<Store>)
    ensures teamId !in s.teams ==> r == Err(ResourceNotFound("team"))
    ensures teamId in s.teams ==>
            (r.Ok? <==> TeamPermission(s.members, teamId, caller).Ok?)
    ensures r.Err? && teamId in s.teams ==> r == Err(TeamPermission(s.members, teamId, caller).error)
    ensures r.Ok? ==> var t := s.teams[teamId];
      && r.value == s.(teams := s.teams[teamId := t.(name := name, location := location)])
      && r.value.teams[teamId].id == t.id && r.value.teams[teamId].owner == t.owner
      && r.value.teams[teamId].logoUrl == t.logoUrl
  {
    var t :- GetTeamById(s.teams, teamId);
    var _ :- TeamPermission(s.members, teamId, caller);
    Ok(s.(teams := s.teams[teamId := t.(name := name, location := location)]))
  }

  /** `updateAndReturnPrevTeamLogo`: a manager swaps the logo URL and gets
      the previous one back. */
  function UpdateAndReturnPrevTeamLogo(s: Store, caller: int, teamId: int, logoUrl: Option<string>)
    : (r: Result<(Store, Option<string>)>)
    ensures teamId !in s.teams ==> r == Err(ResourceNotFound("team"))
    ensures teamId in s.teams ==>
            (r.Ok? <==> TeamPermission(s.members, teamId, caller).Ok?)
    ensures r.Err? && teamId in s.teams ==> r == Err(TeamPermission(s.members, teamId, caller).error)
    ensures r.Ok? ==> var (s', prev) := r.value;
      && prev == s.teams[teamId].logoUrl
      && s' == s.(teams := s.teams[teamId := s.teams[teamId].(logoUrl := logoUrl)])
  {
    var t :- GetTeamById(s.teams, teamId);
    var _ :- TeamPermission(s.members, teamId, caller);
    Ok((s.(teams := s.teams[teamId := t.(logoUrl := logoUrl)]), t.logoUrl))
  }

  /** Putting back the URL a logo update returned restores the store. */
  lemma LogoSwapRestores(s: Store, caller: int, teamId: int, logoUrl: Option<string>)
    requires UpdateAndReturnPrevTeamLogo(s, caller, teamId, logoUrl).Ok?
    ensures var (s', prev) := UpdateAndReturnPrevTeamLogo(s, caller, teamId, logoUrl).value;
            UpdateAndReturnPrevTeamLogo(s', caller, teamId, prev) == Ok((s, logoUrl))
  {
    var (s', prev) := UpdateAndReturnPrevTeamLogo(s, caller, teamId, logoUrl).value;
    assert s'.members == s.members;
    assert s'.teams[teamId := s'.teams[teamId].(logoUrl := prev)] == s.teams;
  }

  /** `getTeamsOfUser`: the team of each of the user's accepted memberships,
      in table order. Every membership row refers to a stored team. */
  function GetTeamsOfUser(s: Store, user: int): (r: seq<Team>)
    requires forall i :: 0 <= i < |s.members| ==> s.members[i].team in s.teams
    ensures forall t :: t in r <==> exists i :: (0 <= i < |s.members| && s.members[i].user == user
                                   && s.members[i].acceptStatus == Accepted
                                   && t == s.teams[s.members[i].team])
  {
    TeamsOf(s.teams, s.members, user)
  }

  function TeamsOf(teams: map<int, Team>, ms: seq<TeamMember>, user: int): (r: seq<Team>)
    requires forall i :: 0 <= i < |ms| ==> ms[i].team in teams
    ensures forall t :: t in r <==> exists i :: (0 <= i < |ms| && ms[i].user == user
                                   && ms[i].acceptStatus == Accepted && t == teams[ms[i].team])
  {
    if |ms| == 0 then []
    else
      var head := if ms[0].user == user && ms[0].acceptStatus == Accepted then [teams[ms[0].team]] else [];
      var rest := TeamsOf(teams, ms[1..], user);
      assert forall t :: t in rest <==> exists i :: (1 <= i < |ms| && ms[i].user == user
                       && ms[i].acceptStatus == Accepted && t == teams[ms[i].team]) by {
        forall t | t in rest
          ensures exists i :: (1 <= i < |ms| && ms[i].user == user
                  && ms[i].acceptStatus == Accepted && t == teams[ms[i].team])
        {
          var k :| 0 <= k < |ms[1..]| && ms[1..][k].user == user
                   && ms[1..][k].acceptStatus == Accepted && t == teams[ms[1..][k].team];
          assert ms[k + 1] == ms[1..][k];
        }
        forall t, i | 1 <= i < |ms| && ms[i].user == user && ms[i].acceptStatus == Accepted
                      && t == teams[ms[i].team]
          ensures t in rest
        {
          assert ms[1..][i - 1] == ms[i];
        }
      }
      head + rest
  }
}
